=== FILE: README.md ===
# dingtalk-bot: a Dafny model of the command bot and its agents

The repository is a DingTalk chat bot. Its two servers, `app.py` and `main.py`, do the following:

- They receive webhook callbacks.
- They normalise a "Test1 …" command and answer it directly, or pass an "LLM" request to an assistant in the background.
- They keep a table of running jobs, which `/debug/tasks` lists.

The assistant in `agent_tools.py` asks an LLM and looks for a "```json" tool call in its reply. It then dispatches the call to a weather, calculator or e-mail tool. `Test.py` is a command-line variant of that agent with these differences:

- It keeps a bounded conversation memory.
- It uses a second extraction rule, which raises on a bad candidate.
- Its only tool is QQ mail.

The model is written in Dafny as pure functions over immutable values:

| module | file | what it holds |
|---|---|---|
| `PyStr` | `pystr.dfy` | The Python string semantics the code relies on: `str.find` (-1 when absent), `in`, slices with negative and out-of-range bounds, `strip`/`lstrip`/`rstrip` over `str.isspace`, `split`, `re.sub` of a literal, and `re.sub(r'\s', '', …)`. |
| `Json` | `json.dfy` | The values `json.loads` yields, Python truthiness, and the text of `AttributeError`. |
| `AgentTools` | `agent_tools.dfy` | `extract_tool_call`, the three tool handlers up to their external call, `call_tool` and `process_request`. |
| `TestAgent` | `test_agent.dfy` | `AgentMemory`, `Toolkit`, the second `extract_tool_call` and `process_input`. |
| `ExtractorVariants` | `variants.dfy` | Where the two extractors agree and where they differ. |
| `Commands` | `commands.dfy` | What both servers share: the reply texts, `process_command`'s normalisation and routing, the webhook's routing, and the shape of what the assistant returns. |
| `Registry` | `registry.dfy` | The `processing_tasks` table, runs of job starts and job ends, and the `/debug/tasks` listing. |
| `MainServer` | `main_server.dfy` | `process_command`, `sync_llm_processing`, `async_process_llm_message` and the webhook of `main.py`. |
| `AppServer` | `app_server.dfy` | The same operations in `app.py`, which also classifies dict results and hands stock-report PDFs to the Qiniu upload. |

External services and library calls are parameters:

- **The LLM.** Its reply is an `LlmReply` value: content, or the exception the SDK raised.
- **`json.loads`.** It is passed as `parse: string -> Parse`, where `Parse` is a value or a decode error.
- **Python's `str()` of non-string values.** This is `repr` for JSON values and `show` for assistant results.
- **The assistant the servers call.** It is passed as `assistant: string -> AssistantResult`.
- **The at-tag regular expression.** It is passed as `dropAtTags`.
- **The clock.** `now` stands for `time.time()` and `clock` for `strftime`.
- **The environment settings.** `arkKey` is `ARK_API_KEY`, `brevoKey` is `BREVO_API_KEY`, and `qiniuReady` says whether all four Qiniu settings exist.

What the servers send is returned as a sequence of `Effect`s: a chat message, or a PDF handed to the upload. The job table is threaded through as a value.

The assistant is a parameter and not `agent_tools.smart_assistant` itself, for two reasons:

- The two servers disagree with that function. In `agent_tools.py` it is synchronous and returns a string. `app.py` awaits it and inspects dict results (`{"type": "text"}`, `{"type": "stock_pdf"}`).
- `AssistantResult` covers everything either server is prepared to handle.

Notable details of the code:

- Two messages in `app.py` are written with an ASCII colon: the PDF notice ("Test1: 📈 …") and the Qiniu upload's success message ("Test1: 文件上传成功！…"). The upload's own work is not modelled, so among the modelled replies only the PDF notice lacks the full-width "Test1：".
- The `app.py` webhook calls `sync_llm_processing` directly, without recording the job.

## Model

| member | source | states |
|---|---|---|
| AgentTools.Candidate | agent_tools.py:148-151 | There is a JSON candidate exactly when the reply contains "```json"; the candidate is never longer than the reply |
| AgentTools.ExtractToolCall | agent_tools.py:146-159 | A call is returned exactly when the candidate decodes to a dict holding "action" and "parameters", and the call is that dict; a reply without "```json" gives none; nothing is raised |
| AgentTools.CallOf | agent_tools.py:153-158 | The decode-and-check half of extraction: `Some` exactly for a decoded tool-call dict, carrying that dict |
| AgentTools.GetWeather | agent_tools.py:35-38 | A falsy city is answered "请指定城市名称" and only a truthy city reaches the weather request |
| AgentTools.ScanStopsAtFirstUnallowed | agent_tools.py:54-61 | Iterating a list stops at its first item that is not a one-character allowed string: a list or dict there raises on the membership test and gives "计算失败", any other item gives the unsupported-character reply, and a list of allowed characters only reaches `eval`, which rejects a list, so it also gives "计算失败" |
| AgentTools.ScanItems | agent_tools.py:56-61 | Iterating a list ends in "计算失败" or in the unsupported-character reply; a list made only of allowed one-character strings passes the test, reaches `eval` and fails with "计算失败"; the unsupported-character reply needs an item that is neither an allowed character nor a list or dict |
| AgentTools.Calculator | agent_tools.py:49-61 | A string reaches `eval` exactly when it is non-empty and made only of digits, operators, brackets, dots and spaces; a falsy expression and a string with a bad character get their fixed answers; a non-empty list or dict ends in "计算失败" (its items or keys all allowed, so `eval` rejects the non-string, or an unhashable item) or in the unsupported-character reply, and for a dict "计算失败" comes exactly when every key is an allowed character; a truthy number or `True` is not iterable and ends in "计算失败" |
| AgentTools.SendEmail | agent_tools.py:63-80 | Empty fields are refused first, then a missing or empty Brevo key; otherwise the send request carries the three fields and the key |
| AgentTools.CallTool | agent_tools.py:161-174 | An unknown action is answered "未知工具：" plus its text; a known action with non-dict parameters raises `AttributeError` on `.get`; with dict parameters each known action is answered by its own handler, given the values `.get` reads (missing as ""), and each handler is reached only by its own name |
| AgentTools.FalsyArgumentsAreGuarded | agent_tools.py:161-172 | For dict parameters: "get_weather" answers "请指定城市名称" exactly when the city read is falsy (missing, empty, zero), otherwise queries that city; "calculator" answers "请提供数学表达式" exactly for a falsy expression and reaches `eval` exactly for a non-empty all-allowed string; "send_email" refuses exactly when a field is falsy and sends exactly when all are truthy and the Brevo key is set, with those fields |
| AgentTools.ProcessRequest | agent_tools.py:176-202 | No exception escapes; the tool flag is set only when a call was extracted from the stripped reply; with no call the stripped reply is returned; an LLM failure becomes "处理请求时出错：" plus the message |
| AgentTools.CandidateIsFirstBlock | agent_tools.py:148-151 | For any reply: with the first "```json" ending at some index and the first "```" at or after it at `e` (or none, `e` = -1), the candidate is the stripped slice between them, so with no closing fence it stops one character short of the end |
| AgentTools.CandidateOfFencedBlock | agent_tools.py:148-151 | For `pre` + "```json" + body + "```" + post, where no "```json" starts before the block's own and no "```" starts inside the body (backticks elsewhere are allowed), the candidate is the stripped body, whatever `post` holds |
| AgentTools.CandidateOfUnclosedFence | agent_tools.py:149-151 | For `pre` + "```json" + body, where no "```json" starts before the block's own and the body holds no "```", the `find` gives -1 and the slice `[start:-1]` drops the body's last character |
| AgentTools.FirstJsonFence | agent_tools.py:149 | When no "```json" starts inside `pre` + "```json" before its end, `find` returns `len(pre)` whatever follows |
| AgentTools.UnclosedFenceFind | agent_tools.py:149-150 | The two `find` calls on an unclosed block (same conditions as CandidateOfUnclosedFence): the opening is found at `len(pre)` and the closing search gives -1 |
| AgentTools.ProcessRequestUsesExtractedTool | agent_tools.py:194-197 | When a call is extracted, the answer is that tool's outcome with the flag set, unless `.get` on the parameters raised, which becomes the error text without the flag |
| AgentTools.MissingParametersAreGuarded | agent_tools.py:161-172 | A missing parameter key is read as "" and the handler's emptiness guard answers before any network call |
| AgentTools.UnknownActionNamesItself | agent_tools.py:173-174 | An unknown action name reaches no handler and is quoted in the answer |
| TestAgent.NewMemory | Test.py:15-31 | A new memory has an empty history and the given bound (10 by default) |
| TestAgent.AddMessage | Test.py:33-37 | The new message is last; with a bound of at least 1 the history keeps the last `max_history` messages; below the bound nothing is dropped |
| TestAgent.GetMessages | Test.py:39-42 | The message list is the system prompt as a "system" message followed by the whole history |
| TestAgent.HistoryIsSlidingWindow | Test.py:33-37 | After any run of `add_message` calls the history is exactly the last `max_history` messages ever added, in order |
| TestAgent.AddMessageWindow | Test.py:35-37 | One `add_message` keeps the last `max_history` messages of the old history plus the new one |
| TestAgent.ZeroBoundKeepsAll | Test.py:36-37 | With `max_history = 0` the slice `[-0:]` keeps everything, so the history grows without bound |
| TestAgent.NewToolkit | Test.py:46-52 | The toolkit is configured exactly when both QQ settings are present and not blank |
| TestAgent.SendQqEmail | Test.py:54-59 | Empty fields are refused first, then an unconfigured account; the SMTP session is reached exactly when both checks pass, and it uses the configured sender |
| TestAgent.CallTool | Test.py:86-95 | Any action but "send_qq_email" gets the unknown-tool text naming it; non-dict parameters raise on `.get`; with a dict, the first of "to", "subject", "body" that is not a string raises `AttributeError` on `.strip`, and three strings reach `send_qq_email` stripped |
| TestAgent.QqMailSentIff | Test.py:54-93 | For "send_qq_email" with a dict, mail is sent exactly when the three fields are strings holding a non-whitespace character and the account is configured, and it carries the stripped fields; a whitespace-only field is refused as empty |
| TestAgent.NonBlankStrippedInOrder | Test.py:117 | The comprehension keeps exactly one entry per non-blank part, in order: the non-blank part `j`, stripped, sits at the index that counts the non-blank parts before it, and the length is the number of non-blank parts |
| TestAgent.NonBlankStripped | Test.py:117 | The comprehension keeps one non-empty entry per non-blank part, so its length is the number of non-blank parts |
| TestAgent.JsonTagIsLowerPrefix | Test.py:119 | The tag test holds exactly when the first four characters, lower-cased, spell "json" |
| TestAgent.BracedIsStripped | Test.py:122-123 | A part that starts with "{" and ends with "}" is never taken for a "json"-tagged part, and stripping leaves it unchanged |
| TestAgent.Payload | Test.py:119-124 | The JSON text taken from a qualifying part has no surrounding whitespace; a tagged part loses at least its four tag letters, and a braced part is taken whole |
| TestAgent.ErrorText | Test.py:138-147 | The two `ValueError` texts are told apart by their opening words: "JSON格式错误：" exactly for an undecodable candidate and "JSON缺少必要字段，…" exactly for a missing field; an undecodable candidate is quoted right after the opening words |
| TestAgent.FirstQualifying | Test.py:118-124 | The loop stops at the first part tagged "json" or braced, and every part before it qualifies neither way |
| TestAgent.Candidate | Test.py:114-130 | Without "```" the candidate is the stripped reply exactly when it is braced; with "```" there is none exactly when no non-blank part qualifies |
| TestAgent.CandidateIsFirstQualifying | Test.py:116-124 | For any reply containing "```": when segment `i` qualifies and no earlier one does, the candidate is segment `i`'s payload (the stripped text after the tag, or the braced segment itself) |
| TestAgent.ExtractToolCall | Test.py:109-148 | No call exactly when there is no candidate or it is empty; a call is the decoded dict with "action" and "parameters"; any other candidate raises `ValueError` |
| TestAgent.CallOf | Test.py:132-148 | The decode-and-check half: an absent or empty candidate is no call, a decoded tool-call dict is a call, anything else raises |
| TestAgent.JsonTaggedPayload | Test.py:119-120 | A part starting with "json" is never blank, is tagged, and yields its stripped remainder |
| TestAgent.SplitOfFencedBlock | Test.py:117 | When `pre`, body and `post` hold no backtick, splitting `pre` + "```json" + body + "```" + `post` on "```" gives `pre`, "json" + body and `post` |
| TestAgent.CandidateOfFencedBlock | Test.py:116-124 | For one closed "```json" block, when `pre`, body and `post` hold no backtick and `pre` is blank or does not qualify, the candidate is the stripped body |
| TestAgent.CandidateOfUnclosedFence | Test.py:116-121 | With no closing fence, when `pre` and body hold no backtick and `pre` is blank or does not qualify, the candidate is the whole stripped body |
| TestAgent.TaggedPartFirst | Test.py:118-121 | The loop settles on the "json"-tagged part when the one non-blank part before it does not qualify |
| TestAgent.CandidateOfBareReply | Test.py:126-130 | A reply with no backtick yields its stripped text exactly when that text is braced |
| TestAgent.ProcessInput | Test.py:150-182 | The user message is recorded and the LLM is asked with the full message list; an API error records exactly the user message and the "处理失败：" note for that error, with no tool run; a reply continues as HandleReply on the stripped text; the prompt and bound are kept and a raised tool is never reported |
| TestAgent.FailureNote | Test.py:179-180 | An exception is recorded as a "system" message that begins with "处理失败：" |
| TestAgent.FailureNoteQuotesError | Test.py:179-180 | After the "处理失败：" lead, the note holds exactly the error text and a newline |
| TestAgent.HandleReply | Test.py:162-182 | The stripped reply is recorded as "assistant"; with no call nothing more is recorded; a `ValueError` from the extraction adds the failure note for its message; a call whose tool raises adds that exception's note and reports no tool; any other call reports the tool's outcome and records nothing more |
| TestAgent.RecordTurn | Test.py:162-182 | The same four cases, for a given extraction result |
| TestAgent.TurnEndsWithReplyOrFailure | Test.py:150-182 | With a non-negative bound, after a turn the history is not empty; after an API error it ends with the note for that error; after a reply it ends with the assistant's stripped reply or a "处理失败：" system note |
| TestAgent.FailureNoteIsLast | Test.py:179-182 | Recording the failure note leaves it as the last history entry |
| TestAgent.LlmSeesPromptAndInput | Test.py:152-161 | The LLM receives the system prompt first and the new user message last |
| ExtractorVariants.VariantsAgreeOnFencedBlock | agent_tools.py:148-151 | On `pre` + "```json" + body + "```" + `post`, where none of the three holds a backtick and `pre` is blank or does not qualify for Test.py, both extractors (here and Test.py:116-124) take the stripped body |
| ExtractorVariants.VariantsAcceptSameCalls | agent_tools.py:153-158 | On such a reply (no backticks besides the fences, a non-qualifying `pre`) both accept the same calls; where agent_tools.py finds none, Test.py finds none for an empty body and raises otherwise |
| ExtractorVariants.SameCandidateSameCalls | Test.py:137-148 | Given the same candidate, the two decode-and-check steps accept the same dicts |
| ExtractorVariants.VariantsDivergeOnBareObject | Test.py:125-130 | A bare braced reply is no call for agent_tools.py but a candidate for Test.py |
| ExtractorVariants.VariantsDivergeOnUnclosedFence | agent_tools.py:149-151 | On an unclosed block, where `pre` and body hold no backtick and `pre` is blank or does not qualify, agent_tools.py loses the body's last character and Test.py keeps it |
| ExtractorVariants.UnclosedEmptyObject | agent_tools.py:150-151 | "```json{}" gives agent_tools.py the candidate "{" and Test.py "{}" |
| Commands.Normalize | main.py:149-152 | The normalised command holds no whitespace and is no longer than the input |
| Commands.RouteOf | main.py:154-173 | Help exactly for an empty command, the time exactly for "时间", the assistant exactly for other commands starting with "LLM" (with the rest, stripped, as prompt), rejection otherwise with the command quoted |
| Commands.RoutedCommandHasNoSpace | main.py:152-160 | The prompt and the quoted command never contain whitespace |
| Commands.PromptLosesSpaces | main.py:149-160 | For non-empty words w1 and w2 without whitespace and without 'T', "Test1 LLM w1 w2" reaches the assistant as w1 immediately followed by w2 |
| Commands.NormalizeSpacedRequest | main.py:149-152 | For the same words, normalising "Test1 LLM w1 w2" gives "LLM" followed by w1 and w2 |
| Commands.AskLlmWhenTagged | main.py:158-160 | A command normalised to "LLM" plus p asks the assistant about p |
| Commands.TagThenNoKey | main.py:151 | Deleting "Test1" from "Test1" plus a text without 'T' leaves that text |
| Commands.SpacedWordsJoin | main.py:152 | Deleting whitespace from " LLM w1 w2" joins the words after "LLM" |
| Commands.KeyCanSurviveDeletion | main.py:151-152 | The deletion is a single left-to-right pass: "TeTest1st1" normalises to "Test1" and is rejected as that command |
| Commands.RejectWhenUntagged | main.py:172-173 | Any other normalised command is rejected as it is |
| Commands.DropLlmTagOfRequest | main.py:214 | For a command starting with "Test1 LLM", removing the tag leaves the rest after those nine characters, stripped |
| Commands.DropLlmTag | main.py:214 | The background prompt has no surrounding whitespace; with the "Test1…LLM" tag present it is at least the eight tag characters shorter than the command; a command that does not start with "Test1" is only stripped |
| Commands.RouteWebhook | main.py:193-214 | No text means nothing is done; a non-string content fails the request; a command starting with "Test1 LLM" goes to the background under the conversation id ("unknown" when missing), any other is answered directly |
| Commands.BackgroundPromptFollowsTag | main.py:202-214 | The background prompt is the command after "Test1 LLM", stripped, keeping its inner spaces; other commands go to `process_command` unchanged |
| Commands.RepliesArePrefixed | main.py:154-173 | Every fixed reply begins with "Test1：" |
| Registry.Start | main.py:81-84 | Recording a job adds its id with its start time and input and leaves other entries alone |
| Registry.Finish | main.py:72-74 | The `finally` removes the id, and only that id |
| Registry.RunTracksLastTouch | main.py:72-84 | After any sequence of starts and ends, an id is in the table exactly when its last event was a start, and it holds that start's entry |
| Registry.SharedIdHidesLiveTask | main.py:72-84 | Two jobs of one conversation: when the second ends, the id is gone although the first is still running |
| Registry.Status | main.py:242 | A job is "running" before 300 seconds and "stuck" from then on |
| Registry.DebugTasks | main.py:231-249 | One row per table entry with its input, elapsed time and the entry's `Status` at `now` ("running" exactly below 300 seconds, "stuck" otherwise); the count is the table's size; the server time is `now` |
| Registry.JustStartedIsRunning | main.py:237-242 | A job listed at its start time is running |
| Registry.StuckStaysStuck | main.py:242 | Once stuck, a job stays stuck at any later time |
| Registry.FinishedJobIsNotListed | main.py:231-249 | A finished job disappears from the listing and the count drops by one |
| MainServer.ProcessCommand | main.py:147-173 | Every reply of `process_command` begins with "Test1：" |
| MainServer.LlmReply | main.py:158-171 | Every reply of the LLM branch begins with "Test1：" |
| MainServer.JobReply | main.py:50-70 | Every message of the background job begins with "Test1：" |
| MainServer.SyncLlmProcessing | main.py:46-74 | The job sends exactly one prefixed message and removes its id from the table |
| MainServer.AsyncProcessLlmMessage | main.py:76-91 | Recording and then running the job leaves the table without that id |
| MainServer.Webhook | main.py:183-229 | The request fails exactly on a non-string content; every message sent is prefixed; the table never gains an id |
| MainServer.Respond | main.py:200-226 | As for the webhook, once the callback is routed |
| MainServer.ProcessCommandRoutes | main.py:154-173 | Help for an empty command, the time for "时间", the quoted rejection for anything not starting with "LLM", and the LLM reply otherwise |
| MainServer.LlmRouteReplies | main.py:161-171 | `None` times out; a blank string is "LLM返回了空内容"; a non-blank string is passed on after the prefix; a dict fails on `.strip()`; an exception is reported |
| MainServer.BackgroundJobCleansUp | main.py:208-226 | A background request answers "processing", sends the thinking note and then the job's reply, and leaves the conversation out of the table |
| MainServer.RunningJobIsListed | main.py:81-84 | While a job runs, `/debug/tasks` lists it as running with its input |
| MainServer.JobReplyCases | main.py:50-70 | A missing key, then an exception, then the result's truthiness decide the job's message |
| MainServer.BlankResultIsSentAsIs | main.py:60-62 | A whitespace-only result is truthy and is sent after the prefix, not reported as empty |
| AppServer.ProcessCommand | app.py:391-424 | Every reply of `process_command` begins with "Test1：" |
| AppServer.LlmReply | app.py:402-422 | Every reply of the LLM branch begins with "Test1：" |
| AppServer.JobEffects | app.py:279-326 | The job sends one or two messages, each prefixed except the PDF notice, and uploads only non-empty PDF bytes |
| AppServer.SyncLlmProcessing | app.py:279-329 | The job's messages are tagged as above and its id leaves the table |
| AppServer.AsyncProcessLlmMessage | app.py:332-342 | Recording and then running the job leaves the table without that id |
| AppServer.Webhook | app.py:446-483 | The request fails exactly on a non-string content; every message is prefixed or is the PDF notice; the table never gains an id |
| AppServer.Respond | app.py:463-481 | As for the webhook, once the callback is routed |
| AppServer.LlmRouteReplies | app.py:406-422 | A text dict's string content is checked like a string reply; any other dict fails on `.strip()`; `None` times out |
| AppServer.ResultClassification | app.py:293-321 | A successful report with bytes is announced and uploaded (or fails on a missing Qiniu setting); empty bytes get the empty-PDF reply; text dicts send their content; falsy results get the empty-content reply; exceptions are reported |
| AppServer.UploadOnlyForReports | app.py:295-306 | An upload happens only for a successful stock report with bytes and Qiniu settings, right after the notice |
| AppServer.PdfNoticeIsNotPrefixed | app.py:303 | The PDF notice does not start with "Test1：" |
| AppServer.WebhookJobDropsForeignEntry | app.py:472-475 | The webhook's job is never recorded, yet its `finally` removes any entry for that conversation, including one a running job recorded |
| AppServer.WebhookNeverRegisters | app.py:446-483 | The webhook never adds to the table, so an empty table stays empty |
| PyStr.Find | agent_tools.py:149-150 | `find` returns the least matching index at or after the start, or -1 when there is none |
| PyStr.Contains | agent_tools.py:148 | `in` holds exactly when the substring occurs somewhere |
| PyStr.Slice | agent_tools.py:151 | A slice with in-range bounds is the Dafny slice; crossed bounds give the empty string |
| PyStr.Split | Test.py:117 | `split` gives at least one part, no part contains the separator, and joining the parts with the separator gives back the input |
| PyStr.RemoveAll | main.py:151 | Deleting the key never lengthens the text and leaves a text without the key unchanged |
| PyStr.RemoveAllIsJoinOfSplit | main.py:151 | Deleting every occurrence of the key is splitting on it and joining with "" |
| PyStr.RemoveSpacesKeepsOthers | main.py:152 | Deleting whitespace keeps exactly the non-whitespace characters, each as often as it occurs and in their order: the length is their count, and the non-whitespace character `j` sits at the index counting those before it |
| PyStr.StripWindow | main.py:149 | `strip` keeps exactly the text between the first and the last non-whitespace characters |
| PyStr.BlankIffAllSpace | main.py:165 | `not s.strip()` holds exactly when every character of s is whitespace |
| PyStr.StripIdempotent | Test.py:117 | Stripping twice is stripping once |
| PyStr.Strip | main.py:149 | The stripped text is never longer than the input and neither starts nor ends with whitespace |
| PyStr.StripIsWindow | main.py:149 | What `strip` keeps is one contiguous window of the input with only whitespace before and after it; with the contract of Strip that is the window from the first to the last non-whitespace character |
| PyStr.TrimStart | main.py:214 | Removing leading whitespace (the `\s*` after "Test1" and after "LLM") keeps a suffix that does not start with whitespace, and everything removed is whitespace |
| PyStr.TrimEnd | main.py:149 | Removing trailing whitespace keeps a prefix that does not end with whitespace, and everything removed is whitespace |
| PyStr.RemoveSpaces | main.py:152 | Deleting the `\s` characters leaves no whitespace and never lengthens the text |
| PyStr.AsciiSpaces | main.py:152 | Among ASCII characters, `\s` and `strip` count exactly space, tab, line feed, vertical tab, form feed, carriage return and the separators 0x1C-0x1F as whitespace |
| Json.FalsyValues | agent_tools.py:37 | `not v` holds exactly for `None`, `False`, `0`, `0.0`, `""`, `[]` and `{}`, the values the tools' `if not …` guards refuse |
| Json.NoAttribute | Test.py:90-92 | The `AttributeError` text quotes the type name of the value right after its opening quote, and the name of the missing attribute right before its closing quote |
| Json.NoAttributeTellsKind | Test.py:90-92 | Two values give the same missing-attribute message exactly when they are of the same kind: dict, list, str, int, float, bool or None |

## Left out

- Sending is left out: DingTalk messages (`send_official_message` and its signature), the Qiniu upload's own work and its success message, SMTP, Brevo and wttr.in are external calls. They are modelled only as the effect or request they start.
- `eval` in `calculator`: the model stops at the point where `eval` would run.
- The `Test1` key deletion is exact, but the at-tag regular expression `<at id=".*?">@.*?</at>` is a parameter. It is not modelled as a regular expression.
- `json.loads` and Python's `str()` of dicts, lists and numbers are parameters. Their text is not modelled.
- Dict key order and duplicate JSON keys are not represented, because objects are maps.
- `at_user_ids` and `atUsers`: who is mentioned in a reply is not modelled. Neither is the `KeyError` a malformed `atUsers` entry would raise.
- A callback body that is not JSON, or whose `text` is not a dict, is outside the model. The webhook sees only `text.content` and `conversationId`.
- The GET branch of the webhook is left out, and so are the other endpoints: the home page, `/health`, `/server-ip`, `/test-playwright`, the shutdown hook and the lifespan.
- Concurrency is not modelled. Background jobs run to completion at once and the table is a value, so interleavings appear only as explicit event sequences (`Registry.Run`).
- Registry.DebugTasks: `duration_seconds` is the exact elapsed time rather than `round(duration, 1)`, because Python's float rounding is not modelled. The status uses the unrounded duration, as the source does.
- Logging and debug printing are left out, including the PDF-header warning in the Qiniu upload.
- The `if __name__ == "__main__"` blocks and `smart_assistant`'s construction of a fresh agent are left out.
- AgentTools.SendEmail: the `xkeysib-` prefix check only prints a warning, so it is not modelled.
- MainServer.LlmRouteReplies: the reply for a blank string is one-directional. An assistant may itself return the exact text of the empty-content reply, so the reply does not determine the case.
- The `conversationId` of a callback is a string or absent (`Inbound.conversationId` is `Option<string>`). A JSON `null` or a non-string id, which `data.get('conversationId', 'unknown')` would pass on as the task key, cannot be represented.
- Commands.PromptLosesSpaces: stated only for words without the letter 'T'. That condition rules out a word that holds "Test1", which the deletion would remove. Words holding a 'T' but no "Test1" behave the same but are not covered.
- Commands.NormalizeSpacedRequest: the same restriction to words without 'T', for the same reason.
- TestAgent.SplitOfFencedBlock: stated only when the text around and inside the block holds no backtick. A reply with other backticks is covered only by TestAgent.Candidate and TestAgent.CandidateIsFirstQualifying, over its segments.
- TestAgent.CandidateOfFencedBlock: the same backtick-free restriction, with a `pre` that is blank or does not qualify.
- TestAgent.CandidateOfUnclosedFence: the same backtick-free restriction, with a `pre` that is blank or does not qualify.
- ExtractorVariants.VariantsAgreeOnFencedBlock: compared only on backtick-free pieces with a `pre` that does not qualify, because that is where the Test.py lemmas above apply.
- ExtractorVariants.VariantsAcceptSameCalls: the same restriction.
- ExtractorVariants.VariantsDivergeOnUnclosedFence: the same restriction.
- TestAgent.AsciiLower: only ASCII letters are lower-cased. Unicode lower-casing maps no other character to 'j', 's', 'o' or 'n', and its one expanding mapping (U+0130) begins with 'i', so the tag test is the same.
- TestAgent.TurnEndsWithReplyOrFailure: stated for a non-negative `max_history` only. With a negative bound, `history[-max_history:]` drops entries from the front and can leave the history empty.

=== FILE: agent_tools.dfy ===
/**
 agent_tools.py: the agent that asks the LLM, looks in its reply for a
 "```json" block naming a tool, and dispatches the tool call.

 The LLM reply, `json.loads` and Python's `str()` of non-string values are
 parameters. Each tool's network call (wttr.in, `eval`, the Brevo API) is an
 opaque `Outcome`; only the branches decided before that call are concrete.
 */
module AgentTools {
  import opened Wrappers
  import opened PyStr
  import opened Json

  const Fence := "```"
  const JsonFence := "```json"

  /* ---------------- tool-call extraction ---------------- */

  /** The text `extract_tool_call` hands to `json.loads`: from just after the
      first "```json" up to the next "```" (`find` gives -1 when there is none,
      and the slice then stops one character before the end), trimmed. */
  function Candidate(reply: string): (c: Option<string>)
    ensures c.None? <==> !Contains(reply, JsonFence)
    ensures c.Some? ==> |c.value| <= |reply|
  {
    assert Contains(reply, JsonFence) ==> Contains(reply, Fence) by {
      forall k | OccursAt(reply, JsonFence, k) ensures OccursAt(reply, Fence, k) {
        assert reply[k..k + 3] == reply[k..k + 7][..3];
      }
    }
    if Contains(reply, JsonFence) && Contains(reply, Fence) then
      var start := Find(reply, JsonFence, 0) + |JsonFence|;
      var end := Find(reply, Fence, start);
      Some(Strip(Slice(reply, start, end)))
    else None
  }

  /** `extract_tool_call`: the decoded dict when the candidate parses to a dict
      holding "action" and "parameters"; `None` otherwise, never an exception. */
  function ExtractToolCall(reply: string, parse: string -> Parse): (t: Option<map<string, Value>>)
    ensures t.Some? ==> "action" in t.value && "parameters" in t.value
    ensures !Contains(reply, JsonFence) ==> t.None?
    ensures t.Some? <==> Candidate(reply).Some?
                         && parse(Candidate(reply).value).Parsed?
                         && IsToolCall(parse(Candidate(reply).value).value)
    ensures t.Some? ==> parse(Candidate(reply).value) == Parsed(Obj(t.value))
  {
    CallOf(Candidate(reply), parse)
  }

  /** The second half of `extract_tool_call`: `json.loads` the candidate, if
      any, and keep the result only when it is a tool call. */
  function CallOf(c: Option<string>, parse: string -> Parse): (t: Option<map<string, Value>>)
    ensures t.Some? <==> c.Some? && parse(c.value).Parsed? && IsToolCall(parse(c.value).value)
    ensures t.Some? ==> parse(c.value) == Parsed(Obj(t.value))
  {
    match c
    case None => None
    case Some(c) =>
      match parse(c)
      case Malformed(_) => None
      case Parsed(v) => if IsToolCall(v) then Some(v.fields) else None
  }

  /* ---------------- tools ---------------- */

  /** What a tool call comes to. `Reply` is a string decided before any external
      call; the next three stand for the external call a handler makes, whose
      result (success text or the handler's own failure text) is not modelled;
      `Raised` is an exception escaping `call_tool`. */
  datatype Outcome =
    | Reply(text: string)
    | WeatherQuery(city: Value)
    | Evaluate(expression: string)
    | BrevoSend(to: Value, subject: Value, body: Value, apiKey: string)
    | Raised(error: string)

  const NoCity := "请指定城市名称"
  const NoExpression := "请提供数学表达式"
  const BadCharacter := "表达式包含不支持的字符"
  const CalcFailed := "计算失败"
  const MissingEmailField := "收件人、主题或正文不能为空"
  const BrevoNotConfigured := "❌ 邮件服务未配置：BREVO_API_KEY 未找到"
  const UnknownTool := "未知工具："

  /** The characters `calculator` lets through to `eval`. */
  const Allowed: set<char> := {'+', '-', '*', '/', '(', ')', '.', ' ',
                               '0', '1', '2', '3', '4', '5', '6', '7', '8', '9'}

  predicate AllAllowed(s: string) {
    forall i :: 0 <= i < |s| ==> s[i] in Allowed
  }

  /** `get_weather`: a falsy city is refused before the HTTP request. */
  function GetWeather(city: Value): (o: Outcome)
    ensures o.Reply? <==> !Truthy(city)
    ensures o.Reply? ==> o.text == NoCity
    ensures !o.Reply? ==> o == WeatherQuery(city)
  {
    if !Truthy(city) then Reply(NoCity) else WeatherQuery(city)
  }

  /** `c in allowed_chars` for one item of an iterated list: a list or dict item
      is unhashable and makes the membership test raise `TypeError`. */
  function ScanItems(items: seq<Value>): (o: Outcome)
    ensures o == Reply(CalcFailed) || o == Reply(BadCharacter)
    ensures (forall j :: 0 <= j < |items| ==> AllowedItem(items[j])) ==> o == Reply(CalcFailed)
    ensures o == Reply(BadCharacter) ==>
              exists j :: 0 <= j < |items| && !AllowedItem(items[j]) && !items[j].Arr? && !items[j].Obj?
  {
    if |items| == 0 then Reply(CalcFailed)  // every item passed: `eval` of a list raises
    else match items[0]
      case Arr(_) => Reply(CalcFailed)
      case Obj(_) => Reply(CalcFailed)
      case Str(t) =>
        if |t| == 1 && t[0] in Allowed then ScanItems(items[1..]) else Reply(BadCharacter)
      case _ => Reply(BadCharacter)
  }

  /** An item that passes `c in allowed_chars`: a one-character allowed string. */
  predicate AllowedItem(v: Value) {
    v.Str? && |v.s| == 1 && v.s[0] in Allowed
  }

  /** The scan stops at the first item `i` that is not an allowed character: a
      list or dict there (or no such item) ends in "计算失败", anything else in
      the unsupported-character reply. */
  lemma {:induction false} ScanStopsAtFirstUnallowed(items: seq<Value>, i: nat)
    requires i <= |items| && forall j :: 0 <= j < i ==> AllowedItem(items[j])
    requires i == |items| || !AllowedItem(items[i])
    ensures ScanItems(items) == if i == |items| || items[i].Arr? || items[i].Obj?
                                then Reply(CalcFailed) else Reply(BadCharacter)
    decreases i
  {
    if i > 0 {
      assert AllowedItem(items[0]);
      var rest := items[1..];
      assert forall j :: 0 <= j < i - 1 ==> rest[j] == items[j + 1];
      ScanStopsAtFirstUnallowed(rest, i - 1);
      assert i - 1 == |rest| || rest[i - 1] == items[i];
    }
  }

  /** `calculator`: the emptiness test and the character whitelist, both
      before `eval`. Iterating over a non-string raises inside the `try` or
      reaches `eval` with a non-string, and both end in "计算失败". */
  function Calculator(expression: Value): (o: Outcome)
    ensures o.Evaluate? <==> expression.Str? && |expression.s| > 0 && AllAllowed(expression.s)
    ensures o.Evaluate? ==> o.expression == expression.s
    ensures !Truthy(expression) ==> o == Reply(NoExpression)
    ensures expression.Str? && |expression.s| > 0 && !AllAllowed(expression.s) ==> o == Reply(BadCharacter)
    ensures !o.Evaluate? ==> o.Reply?
    ensures (expression.Arr? || expression.Obj?) && Truthy(expression) ==>
              o == Reply(CalcFailed) || o == Reply(BadCharacter)
    ensures expression.Obj? && Truthy(expression) ==>
              (o == Reply(CalcFailed) <==> forall k :: k in expression.fields ==> |k| == 1 && k[0] in Allowed)
    ensures (expression.Int? || expression.Float? || expression.Bool?) && Truthy(expression) ==>
              o == Reply(CalcFailed)
  {
    if !Truthy(expression) then Reply(NoExpression)
    else match expression
      case Str(s) => if AllAllowed(s) then Evaluate(s) else Reply(BadCharacter)
      case Arr(items) => ScanItems(items)
      case Obj(m) =>  // iterating a dict yields its keys
        if forall k :: k in m ==> |k| == 1 && k[0] in Allowed then Reply(CalcFailed) else Reply(BadCharacter)
      case _ => Reply(CalcFailed)  // int, float, True: not iterable
  }

  /** `send_email`: empty fields, then a missing or empty `BREVO_API_KEY`, are
      refused before the HTTP request. */
  function SendEmail(to: Value, subject: Value, body: Value, brevoKey: Option<string>): (o: Outcome)
    ensures o.Reply? <==> !(Truthy(to) && Truthy(subject) && Truthy(body))
                          || brevoKey.None? || brevoKey.value == ""
    ensures !(Truthy(to) && Truthy(subject) && Truthy(body)) ==> o == Reply(MissingEmailField)
    ensures !o.Reply? ==> o == BrevoSend(to, subject, body, brevoKey.value)
  {
    if !(Truthy(to) && Truthy(subject) && Truthy(body)) then Reply(MissingEmailField)
    else if brevoKey.None? || brevoKey.value == "" then Reply(BrevoNotConfigured)
    else BrevoSend(to, subject, body, brevoKey.value)
  }

  /** The action names `call_tool` knows. */
  predicate IsKnownAction(action: Value) {
    action == Str("get_weather") || action == Str("calculator") || action == Str("send_email")
  }

  /** `call_tool`: a flat switch on the action name; a missing parameter is read
      as "". `parameters.get` on a non-dict raises `AttributeError`. */
  function CallTool(action: Value, parameters: Value, brevoKey: Option<string>,
                    repr: Value -> string): (o: Outcome)
    ensures !IsKnownAction(action) ==> o == Reply(UnknownTool + ToStr(action, repr))
    ensures o.Raised? <==> IsKnownAction(action) && !parameters.Obj?
    ensures o.Raised? ==> o.error == NoAttribute(parameters, "get")
    ensures o.WeatherQuery? ==> action == Str("get_weather")
    ensures o.Evaluate? ==> action == Str("calculator")
    ensures o.BrevoSend? ==> action == Str("send_email")
    ensures action == Str("get_weather") && parameters.Obj? ==>
              o == GetWeather(Get(parameters.fields, "city", Str("")))
    ensures action == Str("calculator") && parameters.Obj? ==>
              o == Calculator(Get(parameters.fields, "expression", Str("")))
    ensures action == Str("send_email") && parameters.Obj? ==>
              o == SendEmail(Get(parameters.fields, "to", Str("")), Get(parameters.fields, "subject", Str("")),
                             Get(parameters.fields, "body", Str("")), brevoKey)
  {
    if !IsKnownAction(action) then Reply(UnknownTool + ToStr(action, repr))
    else if !parameters.Obj? then Raised(NoAttribute(parameters, "get"))
    else
      var p := parameters.fields;
      if action == Str("get_weather") then GetWeather(Get(p, "city", Str("")))
      else if action == Str("calculator") then Calculator(Get(p, "expression", Str("")))
      else SendEmail(Get(p, "to", Str("")), Get(p, "subject", Str("")), Get(p, "body", Str("")), brevoKey)
  }

  /* ---------------- the request ---------------- */

  /** The chat-completion call: the reply text, or the message of the exception
      the SDK call (or `.content.strip()` on a missing content) raised. */
  datatype LlmReply = Content(text: string) | ApiError(error: string)

  /** What `process_request` returns: the answer and whether a tool was used. */
  datatype Response = Response(result: Outcome, toolUsed: bool)

  const RequestFailed := "处理请求时出错："

  /** `process_request`: the tool's result and `True` when a tool call was
      extracted and dispatched; otherwise the trimmed reply and `False`.
      Every exception becomes an error text with `False`. */
  function ProcessRequest(llm: LlmReply, parse: string -> Parse, brevoKey: Option<string>,
                          repr: Value -> string): (r: Response)
    ensures !r.result.Raised?
    ensures r.toolUsed ==> llm.Content? && ExtractToolCall(Strip(llm.text), parse).Some?
    ensures llm.Content? && ExtractToolCall(Strip(llm.text), parse).None?
            ==> r == Response(Reply(Strip(llm.text)), false)
    ensures llm.ApiError? ==> r == Response(Reply(RequestFailed + llm.error), false)
  {
    match llm
    case ApiError(e) => Response(Reply(RequestFailed + e), false)
    case Content(text) =>
      var reply := Strip(text);
      match ExtractToolCall(reply, parse)
      case None => Response(Reply(reply), false)
      case Some(call) =>
        var o := CallTool(call["action"], call["parameters"], brevoKey, repr);
        if o.Raised? then Response(Reply(RequestFailed + o.error), false)
        else Response(o, true)
  }

  /* ---------------- properties ---------------- */

  /** The candidate is the trimmed text between the first "```json" (at `k`)
      and the first "```" at or after its end (at `e`), or up to one character
      before the end of the reply when no "```" follows (`e` is -1). */
  lemma CandidateIsFirstBlock(reply: string, k: nat, e: int)
    requires FirstOccurrence(reply, JsonFence, k)
    requires e == -1 || (k + |JsonFence| <= e && OccursAt(reply, Fence, e))
    requires forall j :: k + |JsonFence| <= j && (e == -1 || j < e) ==> !OccursAt(reply, Fence, j)
    ensures Candidate(reply) == Some(Strip(Slice(reply, k + |JsonFence|, e)))
  {
    var start := k + |JsonFence|;
    FindIsFirst(reply, JsonFence, 0, k);
    if e == -1 {
      FindIsAbsent(reply, Fence, start);
    } else {
      FindIsFirst(reply, Fence, start, e);
    }
  }

  /** In `pre + "```json" + rest`, the block's own "```json" comes first when
      none begins inside `pre` (one may run into the fence). */
  lemma FirstJsonFence(pre: string, rest: string)
    requires FirstOccurrence(pre + JsonFence, JsonFence, |pre|)
    ensures FirstOccurrence(pre + JsonFence + rest, JsonFence, |pre|)
    ensures Find(pre + JsonFence + rest, JsonFence, 0) == |pre|
  {
    FirstOccurrenceAppend(pre, JsonFence, rest);
    FindIsFirst(pre + JsonFence + rest, JsonFence, 0, |pre|);
  }

  /** A reply with one "```json" block yields the block's trimmed body as the
      candidate, whatever follows the closing fence, provided no "```json"
      begins before the block and no "```" begins inside the body. */
  lemma CandidateOfFencedBlock(pre: string, body: string, post: string)
    requires FirstOccurrence(pre + JsonFence, JsonFence, |pre|)
    requires FirstOccurrence(body + Fence, Fence, |body|)
    ensures Candidate(pre + JsonFence + body + Fence + post) == Some(Strip(body))
  {
    var s := pre + JsonFence + body + Fence + post;
    var e := |pre| + |JsonFence| + |body|;
    FencedBlockBounds(pre, body, post);
    CandidateIsFirstBlock(s, |pre|, e);
  }

  /** Where the block of `pre + "```json" + body + "```" + post` begins and ends. */
  lemma FencedBlockBounds(pre: string, body: string, post: string)
    requires FirstOccurrence(pre + JsonFence, JsonFence, |pre|)
    requires FirstOccurrence(body + Fence, Fence, |body|)
    ensures var s := pre + JsonFence + body + Fence + post;
            var start := |pre| + |JsonFence|;
            && FirstOccurrence(s, JsonFence, |pre|)
            && OccursAt(s, Fence, start + |body|)
            && (forall j :: start <= j < start + |body| ==> !OccursAt(s, Fence, j))
            && Slice(s, start, start + |body|) == body
  {
    var a := pre + JsonFence;
    var rest := body + Fence + post;
    var s := a + rest;
    assert s == pre + JsonFence + body + Fence + post;
    FirstOccurrenceAppend(pre, JsonFence, rest);
    FirstOccurrenceAfter(a, body, Fence, post);
    assert s[|a|..|a| + |body|] == body;
  }

  /** With no closing fence, `find` returns -1 and `r[start:-1]` drops the
      reply's last character. */
  lemma CandidateOfUnclosedFence(pre: string, body: string)
    requires FirstOccurrence(pre + JsonFence, JsonFence, |pre|)
    requires !Contains(body, Fence)
    ensures Candidate(pre + JsonFence + body) == Some(Strip(Slice(body, 0, -1)))
    ensures |body| > 0 ==> Candidate(pre + JsonFence + body) == Some(Strip(body[..|body| - 1]))
  {
    var a := pre + JsonFence;
    FirstOccurrenceAppend(pre, JsonFence, body);
    AbsentAfter(a, body, Fence);
    CandidateIsFirstBlock(a + body, |pre|, -1);
    SliceToLastOfSuffix(a, body);
  }

  /** The two `find` calls on a reply whose "```json" block is never closed. */
  lemma UnclosedFenceFind(pre: string, body: string)
    requires FirstOccurrence(pre + JsonFence, JsonFence, |pre|)
    requires !Contains(body, Fence)
    ensures Find(pre + JsonFence + body, JsonFence, 0) == |pre|
    ensures Find(pre + JsonFence + body, Fence, |pre| + |JsonFence|) == -1
  {
    var a := pre + JsonFence;
    FirstJsonFence(pre, body);
    AbsentAfter(a, body, Fence);
    FindIsAbsent(a + body, Fence, |a|);
  }

  /** Text with no backtick holds no fence of either kind. */
  lemma NoBacktickNoFence(pre: string, body: string)
    requires NoChar(pre, '`') && NoChar(body, '`')
    ensures FirstOccurrence(pre + JsonFence, JsonFence, |pre|)
    ensures FirstOccurrence(body + Fence, Fence, |body|)
    ensures !Contains(body, Fence)
  {
    assert JsonFence[0] == '`' && Fence[0] == '`';
    FirstAfterNoHead(pre, JsonFence);
    FirstAfterNoHead(body, Fence);
    FindAbsent(body, Fence, 0);
  }

  /** A reply whose fenced block parses to a tool call is answered by that tool,
      with the flag set, unless `parameters` is not a dict for a known action. */
  lemma ProcessRequestUsesExtractedTool(text: string, parse: string -> Parse,
                                        brevoKey: Option<string>, repr: Value -> string)
    requires ExtractToolCall(Strip(text), parse).Some?
    ensures var call := ExtractToolCall(Strip(text), parse).value;
            var o := CallTool(call["action"], call["parameters"], brevoKey, repr);
            var r := ProcessRequest(Content(text), parse, brevoKey, repr);
            (r.toolUsed <==> !o.Raised?)
            && (r.toolUsed ==> r.result == o)
            && (!r.toolUsed ==> r.result == Reply(RequestFailed + NoAttribute(call["parameters"], "get")))
  {
  }

  /** Missing parameter keys are read as "", so each guard answers before the
      network is touched. */
  lemma MissingParametersAreGuarded(p: map<string, Value>, brevoKey: Option<string>, repr: Value -> string)
    ensures "city" !in p ==> CallTool(Str("get_weather"), Obj(p), brevoKey, repr) == Reply(NoCity)
    ensures "expression" !in p ==> CallTool(Str("calculator"), Obj(p), brevoKey, repr) == Reply(NoExpression)
    ensures "to" !in p || "subject" !in p || "body" !in p
            ==> CallTool(Str("send_email"), Obj(p), brevoKey, repr) == Reply(MissingEmailField)
  {
  }

  /** A known action with dict parameters is answered by its handler with the
      values read: a falsy (missing, empty or zero) argument meets the
      handler's guard, and only truthy arguments reach the network. */
  lemma FalsyArgumentsAreGuarded(p: map<string, Value>, brevoKey: Option<string>, repr: Value -> string)
    ensures var city := Get(p, "city", Str(""));
            var o := CallTool(Str("get_weather"), Obj(p), brevoKey, repr);
            (o == Reply(NoCity) <==> !Truthy(city)) && (Truthy(city) ==> o == WeatherQuery(city))
    ensures var e := Get(p, "expression", Str(""));
            var o := CallTool(Str("calculator"), Obj(p), brevoKey, repr);
            (o == Reply(NoExpression) <==> !Truthy(e))
            && (o.Evaluate? <==> e.Str? && e.s != "" && AllAllowed(e.s))
    ensures var to := Get(p, "to", Str(""));
            var subject := Get(p, "subject", Str(""));
            var body := Get(p, "body", Str(""));
            var o := CallTool(Str("send_email"), Obj(p), brevoKey, repr);
            (o == Reply(MissingEmailField) <==> !(Truthy(to) && Truthy(subject) && Truthy(body)))
            && (o.BrevoSend? <==> Truthy(to) && Truthy(subject) && Truthy(body)
                                  && brevoKey.Some? && brevoKey.value != "")
            && (o.BrevoSend? ==> o == BrevoSend(to, subject, body, brevoKey.value))
  {
  }

  /** No handler is reached for an unknown action: the answer is the fixed
      "未知工具：" text naming the action. */
  lemma UnknownActionNamesItself(action: string, parameters: Value, brevoKey: Option<string>,
                                 repr: Value -> string)
    requires action != "get_weather" && action != "calculator" && action != "send_email"
    ensures CallTool(Str(action), parameters, brevoKey, repr) == Reply(UnknownTool + action)
  {
  }
}

=== FILE: app_server.dfy ===
/**
 app.py: the asynchronous variant of the server. `process_command` also
 understands `{"type": "text"}` dicts, `sync_llm_processing` classifies the
 assistant's result (text dict, stock-report PDF, anything else), and the
 webhook starts `sync_llm_processing` itself, without recording the job.
 */
module AppServer {
  import opened Wrappers
  import opened PyStr
  import opened Json
  import opened Commands
  import opened Registry

  /** The notice sent before a PDF upload. Unlike every other message it is
      written with an ASCII colon. */
  const PdfNotice := "Test1: 📈 正在生成股票分析报告PDF，请稍候..."
  const EmptyPdf := "Test1：❌ PDF二进制数据为空"
  const UnknownStock := "未知股票"
  /** What `os.environ.get(...).strip()` raises when a Qiniu setting is missing. */
  const NoneHasNoStrip := "'NoneType' object has no attribute 'strip'"

  /** `process_command` (app.py); only the LLM branch differs from main.py. */
  function ProcessCommand(command: string, assistant: string -> AssistantResult, clock: string): (reply: string)
    ensures Prefix <= reply
  {
    RepliesArePrefixed();
    match RouteOf(command)
    case ShowHelp => Help
    case TellTime => PrefixedConcat(TimeLead, clock); TimeLead + clock
    case Reject(c) => PrefixedConcat(Unsupported, c); Unsupported + c
    case AskLlm(prompt) => LlmReply(assistant(prompt))
  }

  /** The LLM branch of `process_command`: a text dict's content is checked
      with `.strip()` (a non-string content raises there), any other dict
      raises at `response.strip()`. */
  function LlmReply(result: AssistantResult): (reply: string)
    ensures Prefix <= reply
  {
    RepliesArePrefixed();
    match result
    case NoResult => Timeout
    case Raises(e) => PrefixedConcat(LlmFailed, e); LlmFailed + e
    case TextDict(content) =>
      if !content.Str? then PrefixedConcat(LlmFailed, NoAttribute(content, "strip")); LlmFailed + NoAttribute(content, "strip")
      else if IsBlank(content.s) then EmptyReply
      else PrefixedConcat(Prefix, content.s); Prefix + content.s
    case Text(s) => if IsBlank(s) then EmptyReply else PrefixedConcat(Prefix, s); Prefix + s
    case _ => PrefixedConcat(LlmFailed, DictHasNoStrip); LlmFailed + DictHasNoStrip
  }

  /** Every message is prefixed, except the PDF notice. */
  predicate Tagged(effects: seq<Effect>) {
    forall i :: 0 <= i < |effects| ==> effects[i].Send? ==> Prefix <= effects[i].text || effects[i].text == PdfNotice
  }

  /** The body of `sync_llm_processing`'s `try`, as the messages and uploads it
      causes. `qiniuReady` says whether all four Qiniu settings exist; `repr`
      renders a non-string text-dict content and `show` any other result. */
  function JobEffects(userInput: string, arkKey: Option<string>, qiniuReady: bool,
                      assistant: string -> AssistantResult, repr: Value -> string,
                      show: AssistantResult -> string): (effects: seq<Effect>)
    ensures 1 <= |effects| <= 2
    ensures Tagged(effects)
    ensures forall i :: 0 <= i < |effects| ==> effects[i].UploadPdf? ==> |effects[i].pdf| > 0
  {
    RepliesArePrefixed();
    if arkKey.None? || arkKey.value == "" then [Send(NoArkKey)]
    else
      var result := assistant(userInput);
      if result.Raises? then PrefixedConcat(JobFailed, result.error); [Send(JobFailed + result.error)]
      else if !result.Truthy() then [Send(EmptyReply)]
      else match result
        case StockPdf(true, pdf, stockName) =>
          if pdf == [] then [Send(EmptyPdf)]
          else if qiniuReady then [Send(PdfNotice), UploadPdf(pdf, stockName.GetOr(UnknownStock))]
          else PrefixedConcat(JobFailed, NoneHasNoStrip); [Send(PdfNotice), Send(JobFailed + NoneHasNoStrip)]
        case TextDict(content) => PrefixedConcat(Prefix, ToStr(content, repr)); [Send(Prefix + ToStr(content, repr))]
        case _ => PrefixedConcat(Prefix, Render(result, show)); [Send(Prefix + Render(result, show))]
  }

  /** `sync_llm_processing`: the job's effects, then (`finally`) the id leaves
      the table. */
  function SyncLlmProcessing(tasks: Tasks, conversationId: string, userInput: string,
                             arkKey: Option<string>, qiniuReady: bool,
                             assistant: string -> AssistantResult, repr: Value -> string,
                             show: AssistantResult -> string): (r: (Tasks, seq<Effect>))
    ensures conversationId !in r.0 && r.0 == tasks - {conversationId}
    ensures Tagged(r.1)
  {
    (Finish(tasks, conversationId), JobEffects(userInput, arkKey, qiniuReady, assistant, repr, show))
  }

  /** `async_process_llm_message`: record the job, then run it. The webhook does
      not go through it. */
  function AsyncProcessLlmMessage(tasks: Tasks, conversationId: string, userInput: string, now: real,
                                  arkKey: Option<string>, qiniuReady: bool,
                                  assistant: string -> AssistantResult, repr: Value -> string,
                                  show: AssistantResult -> string): (r: (Tasks, seq<Effect>))
    ensures r.0 == tasks - {conversationId}
  {
    var running := Start(tasks, conversationId, now, userInput);
    SyncLlmProcessing(running, conversationId, userInput, arkKey, qiniuReady, assistant, repr, show)
  }

  datatype Answer = Accepted(processing: bool) | ServerError(detail: string)

  /** The webhook for a POSTed callback: its answer, the messages sent, and the
      table afterwards. */
  function Webhook(tasks: Tasks, msg: Inbound, dropAtTags: string -> string, clock: string,
                   arkKey: Option<string>, qiniuReady: bool,
                   assistant: string -> AssistantResult, repr: Value -> string,
                   show: AssistantResult -> string): (r: (Answer, seq<Effect>, Tasks))
    ensures r.0.ServerError? <==> RouteWebhook(msg, dropAtTags).BadContent?
    ensures Tagged(r.1)
    ensures r.2.Keys <= tasks.Keys
  {
    Respond(tasks, RouteWebhook(msg, dropAtTags), clock, arkKey, qiniuReady, assistant, repr, show)
  }

  /** The webhook's action once the callback is routed: a background job runs
      `sync_llm_processing` directly. */
  function Respond(tasks: Tasks, routed: Routed, clock: string,
                   arkKey: Option<string>, qiniuReady: bool,
                   assistant: string -> AssistantResult, repr: Value -> string,
                   show: AssistantResult -> string): (r: (Answer, seq<Effect>, Tasks))
    ensures r.0.ServerError? <==> routed.BadContent?
    ensures Tagged(r.1)
    ensures r.2.Keys <= tasks.Keys
  {
    match routed
    case NoText => (Accepted(false), [], tasks)
    case BadContent(detail) => (ServerError(detail), [], tasks)
    case Direct(command) => (Accepted(false), DirectReply(command, assistant, clock), tasks)
    case Background(id, prompt) =>
      var job := SyncLlmProcessing(tasks, id, prompt, arkKey, qiniuReady, assistant, repr, show);
      (Accepted(true), ThinkingFirst(job.1), job.0)
  }

  /** A direct command: its reply is sent at once. */
  function DirectReply(command: string, assistant: string -> AssistantResult, clock: string): (sent: seq<Effect>)
    ensures Tagged(sent)
  {
    [Send(ProcessCommand(command, assistant, clock))]
  }

  /** A background job's messages after the "thinking" note. */
  function ThinkingFirst(sent: seq<Effect>): (all: seq<Effect>)
    requires Tagged(sent)
    ensures Tagged(all)
  {
    RepliesArePrefixed();
    TaggedConcat([Send(Thinking)], sent);
    [Send(Thinking)] + sent
  }

  lemma TaggedConcat(a: seq<Effect>, b: seq<Effect>)
    requires Tagged(a) && Tagged(b)
    ensures Tagged(a + b)
  {
    forall i | 0 <= i < |a + b| && (a + b)[i].Send?
      ensures Prefix <= (a + b)[i].text || (a + b)[i].text == PdfNotice
    {
      if i < |a| { assert (a + b)[i] == a[i]; } else { assert (a + b)[i] == b[i - |a|]; }
    }
  }

  /* ---------------- properties ---------------- */

  /** The LLM branch of `process_command`, case by case. */
  lemma LlmRouteReplies(result: AssistantResult)
    ensures var reply := LlmReply(result);
            && (result.NoResult? ==> reply == Timeout)
            && (result.Text? && IsBlank(result.s) ==> reply == EmptyReply)
            && (result.Text? && !IsBlank(result.s) ==> reply == Prefix + result.s)
            && (result.TextDict? && result.content.Str? && IsBlank(result.content.s) ==> reply == EmptyReply)
            && (result.TextDict? && result.content.Str? && !IsBlank(result.content.s)
                ==> reply == Prefix + result.content.s)
            && ((result.StockPdf? || result.OtherDict?) ==> reply == LlmFailed + DictHasNoStrip)
  {
  }

  /** How `sync_llm_processing` classifies a result (with the key set). */
  lemma ResultClassification(userInput: string, arkKey: Option<string>, qiniuReady: bool,
                             assistant: string -> AssistantResult, repr: Value -> string,
                             show: AssistantResult -> string)
    requires arkKey.Some? && arkKey.value != ""
    ensures var result := assistant(userInput);
            var effects := JobEffects(userInput, arkKey, qiniuReady, assistant, repr, show);
            && (result.StockPdf? && result.success && result.pdf != [] && qiniuReady
                ==> effects == [Send(PdfNotice), UploadPdf(result.pdf, result.stockName.GetOr(UnknownStock))])
            && (result.StockPdf? && result.success && result.pdf != [] && !qiniuReady
                ==> effects == [Send(PdfNotice), Send(JobFailed + NoneHasNoStrip)])
            && (result.StockPdf? && result.success && result.pdf == [] ==> effects == [Send(EmptyPdf)])
            && (result.StockPdf? && !result.success ==> effects == [Send(Prefix + show(result))])
            && (result.TextDict? ==> effects == [Send(Prefix + ToStr(result.content, repr))])
            && (result.Text? && result.s != [] ==> effects == [Send(Prefix + result.s)])
            && ((result.NoResult? || result == Text([]) || result == OtherDict(0)) ==> effects == [Send(EmptyReply)])
            && (result.Raises? ==> effects == [Send(JobFailed + result.error)])
  {
  }

  /** A PDF is uploaded only for a successful stock report with bytes, and only
      after the notice. */
  lemma UploadOnlyForReports(userInput: string, arkKey: Option<string>, qiniuReady: bool,
                             assistant: string -> AssistantResult, repr: Value -> string,
                             show: AssistantResult -> string)
    ensures var effects := JobEffects(userInput, arkKey, qiniuReady, assistant, repr, show);
            var result := assistant(userInput);
            (exists i :: 0 <= i < |effects| && effects[i].UploadPdf?)
            ==> && result.StockPdf? && result.success && result.pdf != [] && qiniuReady
                && effects == [Send(PdfNotice), UploadPdf(result.pdf, result.stockName.GetOr(UnknownStock))]
  {
  }

  /** The PDF notice does not carry the "Test1：" prefix. */
  lemma PdfNoticeIsNotPrefixed()
    ensures !(Prefix <= PdfNotice)
  {
    assert PdfNotice[5] == ':' && Prefix[5] == '：';
  }

  /** The app webhook runs the job without recording it, yet the job's
      `finally` still deletes that conversation's entry: a job started by
      `async_process_llm_message` for the same conversation disappears from
      `/debug/tasks` while it runs. */
  lemma WebhookJobDropsForeignEntry(tasks: Tasks, conversationId: string, prompt: string, clock: string,
                                    arkKey: Option<string>, qiniuReady: bool,
                                    assistant: string -> AssistantResult, repr: Value -> string,
                                    show: AssistantResult -> string)
    requires conversationId in tasks
    ensures var r := Respond(tasks, Background(conversationId, prompt), clock, arkKey, qiniuReady, assistant, repr, show);
            && r.2 == tasks - {conversationId}
            && conversationId !in DebugTasks(r.2, 0.0).tasks
  {
  }

  /** A run of webhook calls never adds a table entry: whatever the table held
      before, it only shrinks. */
  lemma WebhookNeverRegisters(tasks: Tasks, msg: Inbound, dropAtTags: string -> string, clock: string,
                              arkKey: Option<string>, qiniuReady: bool,
                              assistant: string -> AssistantResult, repr: Value -> string,
                              show: AssistantResult -> string)
    ensures var r := Webhook(tasks, msg, dropAtTags, clock, arkKey, qiniuReady, assistant, repr, show);
            |r.2| <= |tasks| && (tasks == map[] ==> r.2 == map[])
  {
    var r := Webhook(tasks, msg, dropAtTags, clock, arkKey, qiniuReady, assistant, repr, show);
    assert r.2.Keys <= tasks.Keys;
    SubsetCard(r.2.Keys, tasks.Keys);
  }

  lemma SubsetCard(a: set<string>, b: set<string>)
    requires a <= b
    ensures |a| <= |b|
  {
    assert b == a + (b - a);
  }
}

=== FILE: commands.dfy ===
/**
 What app.py and main.py share: the reply texts, the normalisation and
 routing of a chat command in `process_command`, the webhook's split between
 direct commands and background "Test1 LLM" jobs, and the shape of what the
 assistant hands back.
 */
module Commands {
  import opened Wrappers
  import opened PyStr
  import opened Json

  /** Every reply the bot composes itself starts with this (a full-width colon). */
  const Prefix := "Test1："
  /** The key `process_command` deletes from a command. */
  const Key := "Test1"
  /** The webhook's test for a background LLM request. */
  const LlmRequest := "Test1 LLM"

  const Help := "Test1：请发送具体指令哦~ 支持的指令：\n- LLM"
  const TimeLead := "Test1：当前时间: "
  const Timeout := "Test1：LLM处理超时或无响应"
  const EmptyReply := "Test1：LLM返回了空内容"
  const LlmFailed := "Test1：LLM处理出错: "
  const Unsupported := "Test1：暂不支持该指令："
  const Thinking := "Test1：正在思考中，请稍等片刻... ⏳"
  const NoArkKey := "Test1：ARK_API_KEY未设置"
  const JobFailed := "Test1：处理出错: "

  /* ---------------- process_command: normalisation and routing ---------------- */

  /** The first three lines of `process_command`: strip, delete every "Test1",
      delete every whitespace character. */
  function Normalize(command: string): (n: string)
    ensures NoSpace(n)
    ensures |n| <= |command|
  {
    var originalMsg := Strip(command);
    RemoveSpaces(RemoveAll(originalMsg, Key))
  }

  /** Where `process_command` sends a normalised command. */
  datatype Route =
    | ShowHelp
    | TellTime
    | AskLlm(prompt: string)
    | Reject(command: string)

  /** The `if`/`elif` chain of `process_command`. The LLM prompt is the command
      without its leading "LLM" (`re.sub(r'^LLM', '', c).strip()`). */
  function RouteOf(command: string): (r: Route)
    ensures var n := Normalize(command);
            && (r.ShowHelp? <==> n == [])
            && (r.TellTime? <==> n == "时间")
            && (r.AskLlm? <==> n != [] && n != "时间" && "LLM" <= n)
            && (r.AskLlm? ==> r.prompt == n[3..] && NoSpace(r.prompt))
            && (r.Reject? ==> r.command == n && NoSpace(r.command))
  {
    var n := Normalize(command);
    if n == [] then ShowHelp
    else if n == "时间" then TellTime
    else if "LLM" <= n then
      NoSpaceSuffix(n, 3);
      StripNoSpace(n[3..]);
      AskLlm(Strip(n[3..]))
    else Reject(n)
  }

  /** A suffix of a string without whitespace has none either. */
  lemma NoSpaceSuffix(s: string, i: nat)
    requires NoSpace(s) && i <= |s|
    ensures NoSpace(s[i..])
  {
    forall k | 0 <= k < |s| - i ensures !IsSpace(s[i..][k]) {
      assert s[i..][k] == s[i + k];
    }
  }

  /** Whatever the user typed, the routed command holds no whitespace: the
      prompt the assistant receives from `process_command` has lost every space
      and line break. */
  lemma RoutedCommandHasNoSpace(command: string)
    ensures RouteOf(command).AskLlm? ==> NoSpace(RouteOf(command).prompt)
    ensures RouteOf(command).Reject? ==> NoSpace(RouteOf(command).command)
  {
  }

  /** For instance "Test1 LLM 你好 世界" (two words, neither holding a 'T')
      reaches the assistant as "你好世界". */
  lemma PromptLosesSpaces(w1: string, w2: string)
    requires |w1| > 0 && |w2| > 0 && NoSpace(w1) && NoSpace(w2)
    requires NoChar(w1, 'T') && NoChar(w2, 'T')
    ensures RouteOf(LlmRequest + " " + w1 + " " + w2) == AskLlm(w1 + w2)
  {
    NormalizeSpacedRequest(w1, w2);
    AskLlmWhenTagged(LlmRequest + " " + w1 + " " + w2, w1 + w2);
  }

  lemma NormalizeSpacedRequest(w1: string, w2: string)
    requires |w1| > 0 && |w2| > 0 && NoSpace(w1) && NoSpace(w2)
    requires NoChar(w1, 'T') && NoChar(w2, 'T')
    ensures Normalize(LlmRequest + " " + w1 + " " + w2) == "LLM" + (w1 + w2)
  {
    var c := LlmRequest + " " + w1 + " " + w2;
    var rest := " LLM " + w1 + " " + w2;
    assert c == Key + rest;
    assert c[0] == 'T' && c[|c| - 1] == w2[|w2| - 1];
    StripUnchanged(c);
    TagThenNoKey(rest);
    SpacedWordsJoin(w1, w2);
  }

  /** A command normalised to "LLM" + p asks the assistant about p. */
  lemma AskLlmWhenTagged(c: string, p: string)
    requires Normalize(c) == "LLM" + p
    ensures RouteOf(c) == AskLlm(p)
  {
    var n := "LLM" + p;
    assert n[0] == 'L' && "时间"[0] == '时';
    assert n[..3] == "LLM";
    assert n[3..] == p;
  }

  /** `re.sub("Test1", "", "Test1" + rest)` is `rest` when `rest` holds no 'T'. */
  lemma TagThenNoKey(rest: string)
    requires NoChar(rest, 'T')
    ensures RemoveAll(Key + rest, Key) == rest
  {
    var c := Key + rest;
    assert c[0..5] == Key;
    FindAt(c, Key, 0, 0);
    assert c[5..] == rest;
    FindAbsent(rest, Key, 0);
  }

  /** Deleting the whitespace of " LLM " + w1 + " " + w2 joins the words. */
  lemma SpacedWordsJoin(w1: string, w2: string)
    requires NoSpace(w1) && NoSpace(w2)
    ensures RemoveSpaces(" LLM " + w1 + " " + w2) == "LLM" + (w1 + w2)
  {
    GroupRight(" LLM ", w1, " ", w2);
    WordsJoin(w1, w2);
    TaggedSpaces(w1 + (" " + w2));
  }

  lemma TaggedSpaces(t: string)
    ensures RemoveSpaces(" LLM " + t) == "LLM" + RemoveSpaces(t)
  {
    assert " LLM " + t == " " + ("LLM" + (" " + t));
    RemoveSpacesAppend(" ", "LLM" + (" " + t));
    RemoveSpacesAppend("LLM", " " + t);
    RemoveSpacesAppend(" ", t);
    SpaceAndTagSpaces();
  }

  lemma WordsJoin(w1: string, w2: string)
    requires NoSpace(w1) && NoSpace(w2)
    ensures RemoveSpaces(w1 + (" " + w2)) == w1 + w2
  {
    var sp := " ";
    var r1 := RemoveSpaces(w1);
    var r2 := RemoveSpaces(sp + w2);
    assert r1 == w1 by { RemoveSpacesNoSpace(w1); }
    assert r2 == w2 by {
      RemoveSpacesAppend(sp, w2);
      SpaceAndTagSpaces();
      RemoveSpacesNoSpace(w2);
      assert r2 == [] + w2;
    }
    RemoveSpacesAppend(w1, sp + w2);
  }

  lemma SpaceAndTagSpaces()
    ensures RemoveSpaces(" ") == [] && RemoveSpaces("LLM") == "LLM"
  {
    assert NoSpace("LLM") by { assert "LLM"[0] == 'L' && "LLM"[1] == 'L' && "LLM"[2] == 'M'; }
    RemoveSpacesNoSpace("LLM");
  }

  /** Deleting the key scans once, left to right, so a command can still hold
      "Test1" afterwards: "TeTest1st1" is routed as the unsupported "Test1". */
  lemma KeyCanSurviveDeletion()
    ensures Normalize("TeTest1st1") == Key
    ensures RouteOf("TeTest1st1") == Reject(Key)
  {
    NormalizeTeTest();
    KeyIsUntagged();
    RejectWhenUntagged("TeTest1st1", Key);
  }

  lemma NormalizeTeTest()
    ensures Normalize("TeTest1st1") == Key
  {
    StripOfTeTest();
    DeletionOfTeTest();
    KeyHasNoSpace();
    RemoveSpacesNoSpace(Key);
  }

  lemma KeyIsUntagged()
    ensures Key != "时间" && !("LLM" <= Key)
  {
    assert Key[0] == 'T' && "时间"[0] == '时' && "LLM"[0] == 'L';
  }

  /** A command normalised to anything but "", "时间" or an "LLM" request is
      rejected as it is. */
  lemma RejectWhenUntagged(c: string, n: string)
    requires Normalize(c) == n && n != [] && n != "时间" && !("LLM" <= n)
    ensures RouteOf(c) == Reject(n)
  {
  }

  lemma StripOfTeTest()
    ensures Strip("TeTest1st1") == "TeTest1st1"
  {
    var c := "TeTest1st1";
    assert c[0] == 'T' && c[|c| - 1] == '1';
    StripUnchanged(c);
  }

  lemma DeletionOfTeTest()
    ensures RemoveAll("TeTest1st1", Key) == Key
  {
    var c := "TeTest1st1";
    KeyFoundAtTwo();
    assert c[..2] == "Te";
    assert c[7..] == "st1";
    FindAbsent("st1", Key, 0);
  }

  lemma KeyFoundAtTwo()
    ensures Find("TeTest1st1", Key, 0) == 2
  {
    var c := "TeTest1st1";
    assert c[0..5][2] == 'T' && Key[2] == 's';
    assert c[0..5] != Key;
    assert c[2..7] == Key;
    FindAt(c, Key, 1, 2);
  }

  lemma KeyHasNoSpace()
    ensures NoSpace(Key)
  {
    assert Key[0] == 'T' && Key[1] == 'e' && Key[2] == 's' && Key[3] == 't' && Key[4] == '1';
  }

  /* ---------------- the webhook ---------------- */

  /** A DingTalk callback body, as far as the webhook reads it: `text.content`
      (absent when either key is missing) and `conversationId`. */
  datatype Inbound = Inbound(content: Option<Value>, conversationId: Option<string>)

  /** What the webhook decides before anything is sent. */
  datatype Routed =
    | NoText
    | Direct(command: string)
    | Background(conversationId: string, prompt: string)
    | BadContent(detail: string)

  /** `re.sub(r'^Test1\s*LLM\s*', '', c).strip()`: the leading tag with any
      whitespace after "Test1" and after "LLM" goes, then the rest is stripped.
      Without the tag only the strip applies. */
  function DropLlmTag(c: string): (r: string)
    ensures Strip(r) == r
    ensures Key <= c && "LLM" <= TrimStart(c[5..]) ==> |r| <= |c| - |Key| - 3
    ensures !(Key <= c) ==> r == Strip(c)
  {
    if Key <= c && "LLM" <= TrimStart(c[5..]) then
      var afterTag := TrimStart(c[5..])[3..];
      StripIdempotent(TrimStart(afterTag));
      Strip(TrimStart(afterTag))
    else
      StripIdempotent(c);
      Strip(c)
  }

  /** On a command the webhook routes to the background, the job's prompt is the
      rest after "Test1 LLM", stripped. */
  lemma DropLlmTagOfRequest(c: string)
    requires LlmRequest <= c
    ensures DropLlmTag(c) == Strip(c[9..])
  {
    TagThenOneSpace(c);
    StripAfterTrimStart(c[9..]);
  }

  /** In a command starting with "Test1 LLM", `lstrip` after the key drops the
      one space, and "LLM" follows. */
  lemma TagThenOneSpace(c: string)
    requires LlmRequest <= c
    ensures Key <= c && TrimStart(c[5..]) == c[6..]
    ensures "LLM" <= c[6..] && c[6..][3..] == c[9..]
  {
    assert c[..5] == LlmRequest[..5] == Key;
    assert c[6..9] == LlmRequest[6..] == "LLM";
    var rest := c[5..];
    assert rest[0] == ' ';
    assert AllSpace(rest[..1]) && !IsSpace(rest[1]);
    TrimStartAt(rest, 1);
    assert rest[1..] == c[6..];
  }

  /** The webhook's reading of a callback: no text is acknowledged and dropped;
      a non-string content raises (FastAPI answers 500); otherwise at-tags are
      removed and the command either starts with "Test1 LLM" or is answered
      directly. `dropAtTags` stands for `re.sub(r'<at id=".*?">@.*?</at>', '', s)`. */
  function RouteWebhook(msg: Inbound, dropAtTags: string -> string): (r: Routed)
    ensures msg.content.None? <==> r.NoText?
    ensures r.BadContent? <==> msg.content.Some? && !msg.content.value.Str?
    ensures r.Direct? ==> !(LlmRequest <= r.command)
    ensures r.Background? ==> r.conversationId == msg.conversationId.GetOr("unknown")
  {
    match msg.content
    case None => NoText
    case Some(v) =>
      if !v.Str? then BadContent("处理请求出错: " + NoAttribute(v, "strip"))
      else
        var command := Strip(dropAtTags(Strip(v.s)));
        var conversationId := msg.conversationId.GetOr("unknown");
        if !(LlmRequest <= command) then Direct(command)
        else Background(conversationId, DropLlmTag(command))
  }

  /** A background job's prompt is the command after "Test1 LLM", stripped, so
      unlike `process_command` it keeps its inner whitespace. */
  lemma BackgroundPromptFollowsTag(msg: Inbound, dropAtTags: string -> string)
    requires msg.content.Some? && msg.content.value.Str?
    ensures var command := Strip(dropAtTags(Strip(msg.content.value.s)));
            LlmRequest <= command
            ==> RouteWebhook(msg, dropAtTags) == Background(msg.conversationId.GetOr("unknown"), Strip(command[9..]))
    ensures var command := Strip(dropAtTags(Strip(msg.content.value.s)));
            !(LlmRequest <= command) ==> RouteWebhook(msg, dropAtTags) == Direct(command)
  {
    var command := Strip(dropAtTags(Strip(msg.content.value.s)));
    if LlmRequest <= command {
      DropLlmTagOfRequest(command);
    }
  }

  /* ---------------- what the assistant returns ---------------- */

  /** The values `smart_assistant` may hand back, as the servers inspect them:
      `None`, a string, a `{"type": "text", "content": …}` dict (a missing
      content reads as ""), a `{"type": "stock_pdf", …}` dict with its success
      flag's truthiness, PDF bytes (missing or `None` read as empty) and optional
      stock name, any other dict (only its size matters), or an exception. */
  datatype AssistantResult =
    | NoResult
    | Text(s: string)
    | TextDict(content: Value)
    | StockPdf(success: bool, pdf: seq<bv8>, stockName: Option<string>)
    | OtherDict(size: nat)
    | Raises(error: string)
  {
    /** `bool(result)`; the two typed dicts always hold their "type" key. */
    predicate Truthy()
      requires !Raises?
    {
      match this
      case NoResult => false
      case Text(s) => s != []
      case TextDict(_) => true
      case StockPdf(_, _, _) => true
      case OtherDict(n) => n > 0
    }
  }

  predicate IsDict(r: AssistantResult) {
    r.TextDict? || r.StockPdf? || r.OtherDict?
  }

  /** `str(result)` (what an f-string inserts): a string is itself; other values
      are rendered by `show`. */
  function Render(r: AssistantResult, show: AssistantResult -> string): string {
    if r.Text? then r.s else show(r)
  }

  /** The message sent back for an assistant value that went through `.strip()`
      on a dict. */
  const DictHasNoStrip := "'dict' object has no attribute 'strip'"

  /** What a run of the bot does to the outside world: a chat message sent, or a
      PDF handed to the Qiniu upload. */
  datatype Effect = Send(text: string) | UploadPdf(pdf: seq<bv8>, stockName: string)

  /** Every message sent starts with "Test1：". */
  predicate AllPrefixed(effects: seq<Effect>) {
    forall i :: 0 <= i < |effects| ==> effects[i].Send? ==> Prefix <= effects[i].text
  }

  lemma PrefixedConcat(a: string, b: string)
    requires Prefix <= a
    ensures Prefix <= a + b
  {
    assert (a + b)[..|Prefix|] == a[..|Prefix|];
  }

  lemma AllPrefixedConcat(a: seq<Effect>, b: seq<Effect>)
    requires AllPrefixed(a) && AllPrefixed(b)
    ensures AllPrefixed(a + b)
  {
    forall i | 0 <= i < |a + b| && (a + b)[i].Send? ensures Prefix <= (a + b)[i].text {
      if i < |a| { assert (a + b)[i] == a[i]; } else { assert (a + b)[i] == b[i - |a|]; }
    }
  }

  /** The fixed replies all carry the prefix. */
  lemma RepliesArePrefixed()
    ensures Prefix <= Help && Prefix <= TimeLead && Prefix <= Timeout && Prefix <= EmptyReply
    ensures Prefix <= LlmFailed && Prefix <= Unsupported && Prefix <= Thinking
    ensures Prefix <= NoArkKey && Prefix <= JobFailed
  {
  }
}

=== FILE: json.dfy ===
/**
 The Python values `json.loads` produces, and the few things the bot asks of
 them: truthiness, the type name an `AttributeError` quotes, and `str()`.
 `json.loads` itself is not modelled: callers receive it as a parameter
 `parse: string -> Parse`.
 */
module Json {

  /** A decoded JSON value: `dict`, `list`, `str`, `int`, `float`, `bool`, `None`.
      Objects are maps, so key order and duplicate keys are not represented. */
  datatype Value =
    | Obj(fields: map<string, Value>)
    | Arr(items: seq<Value>)
    | Str(s: string)
    | Int(i: int)
    | Float(f: real)
    | Bool(b: bool)
    | Null

  /** The outcome of `json.loads`: a value, or the `JSONDecodeError` message. */
  datatype Parse = Parsed(value: Value) | Malformed(reason: string)

  /** Python's `bool(v)`. */
  predicate Truthy(v: Value) {
    match v
    case Obj(m) => |m| > 0
    case Arr(xs) => |xs| > 0
    case Str(s) => |s| > 0
    case Int(i) => i != 0
    case Float(f) => f != 0.0
    case Bool(b) => b
    case Null => false
  }

  /** `type(v).__name__`, as quoted by `AttributeError` messages. */
  function TypeName(v: Value): string {
    match v
    case Obj(_) => "dict"
    case Arr(_) => "list"
    case Str(_) => "str"
    case Int(_) => "int"
    case Float(_) => "float"
    case Bool(_) => "bool"
    case Null => "NoneType"
  }

  /** The text of `AttributeError` when `v.name` is looked up on a value that has
      no such method. */
  function NoAttribute(v: Value, name: string): (r: string)
    ensures |r| == |TypeName(v)| + |name| + 29
    ensures r[..|TypeName(v)| + 2] == "'" + TypeName(v) + "'"
    ensures r[|r| - |name| - 1..|r| - 1] == name
  {
    var head := "'" + TypeName(v) + "'";
    var r := head + " object has no attribute '" + name + "'";
    assert r[..|head|] == head;
    assert r[|r| - |name| - 1..|r| - 1] == name;
    r
  }

  /** The falsy values are exactly `None`, `False`, `0`, `0.0`, `""`, `[]` and `{}`. */
  lemma FalsyValues(v: Value)
    ensures !Truthy(v) <==>
              v == Null || v == Bool(false) || v == Int(0) || v == Float(0.0)
              || v == Str("") || v == Arr([]) || v == Obj(map[])
  {
    if v.Obj? && |v.fields| == 0 {
      assert v.fields.Keys == {};
    }
  }

  /** Two values are of the same kind: the same constructor. */
  predicate SameKind(v: Value, w: Value) {
    && v.Obj? == w.Obj? && v.Arr? == w.Arr? && v.Str? == w.Str? && v.Int? == w.Int?
    && v.Float? == w.Float? && v.Bool? == w.Bool? && v.Null? == w.Null?
  }

  /** Every kind of value has its own type name, and none contains a quote. */
  lemma TypeNameIsKind(v: Value, w: Value)
    ensures TypeName(v) == TypeName(w) <==> SameKind(v, w)
    ensures forall i :: 0 <= i < |TypeName(v)| ==> TypeName(v)[i] != '\''
  {
  }

  /** Between quotes that a name cannot contain, the name can be read back. */
  lemma QuotedNamesAgree(a: string, b: string, x: string, y: string)
    requires forall i :: 0 <= i < |a| ==> a[i] != '\''
    requires forall i :: 0 <= i < |b| ==> b[i] != '\''
    requires "'" + a + "'" + x == "'" + b + "'" + y
    ensures a == b
  {
    var m := "'" + a + "'" + x;
    if |a| < |b| {
      QuoteAfterShorter(a, b, x, y);
    } else if |b| < |a| {
      QuoteAfterShorter(b, a, y, x);
    } else {
      assert a == m[1..1 + |a|] == b;
    }
  }

  /** Where the shorter quoted name closes, the longer one has a quote. */
  lemma QuoteAfterShorter(a: string, b: string, x: string, y: string)
    requires |a| < |b| && "'" + a + "'" + x == "'" + b + "'" + y
    ensures b[|a|] == '\''
  {
    var m := "'" + a + "'" + x;
    assert m[1 + |a|] == '\'';
    assert m[1 + |a|] == b[|a|];
  }

  /** The `AttributeError` text tells the kinds of value apart: two values give
      the same message for a missing attribute exactly when they are of the
      same kind. */
  lemma NoAttributeTellsKind(v: Value, w: Value, name: string)
    ensures NoAttribute(v, name) == NoAttribute(w, name) <==> SameKind(v, w)
  {
    TypeNameIsKind(v, w);
    TypeNameIsKind(w, v);
    var tail := " object has no attribute '" + name + "'";
    if NoAttribute(v, name) == NoAttribute(w, name) {
      assert NoAttribute(v, name) == "'" + TypeName(v) + "'" + tail;
      assert NoAttribute(w, name) == "'" + TypeName(w) + "'" + tail;
      QuotedNamesAgree(TypeName(v), TypeName(w), tail, tail);
    }
  }

  /** `d.get(key, default)` on a dict. */
  function Get(m: map<string, Value>, key: string, default: Value): (v: Value)
    ensures key in m ==> v == m[key]
    ensures key !in m ==> v == default
  {
    if key in m then m[key] else default
  }

  /** `str(v)` (also what an f-string inserts): a string is itself; the
      rendering of other values is left to `repr`. */
  function ToStr(v: Value, repr: Value -> string): string {
    if v.Str? then v.s else repr(v)
  }

  /** The shape both extractors accept as a tool call: a dict holding both the
      "action" and the "parameters" keys. */
  predicate IsToolCall(v: Value) {
    v.Obj? && "action" in v.fields && "parameters" in v.fields
  }
}

=== FILE: main_server.dfy ===
/**
 main.py: `process_command`, the background job (`sync_llm_processing` run by
 `async_process_llm_message`) and the webhook. The assistant, the clock and
 the environment are parameters; the messages the bot sends are returned as
 `Effect`s and the table of running jobs is threaded through.
 */
module MainServer {
  import opened Wrappers
  import opened PyStr
  import opened Json
  import opened Commands
  import opened Registry

  /** `process_command`. `clock` is `time.strftime('%Y-%m-%d %H:%M:%S')`. A
      dict from the assistant reaches `.strip()` and raises, which the `except`
      turns into an error reply. */
  function ProcessCommand(command: string, assistant: string -> AssistantResult, clock: string): (reply: string)
    ensures Prefix <= reply
  {
    match RouteOf(command)
    case ShowHelp => Help
    case TellTime => PrefixedConcat(TimeLead, clock); TimeLead + clock
    case Reject(c) => PrefixedConcat(Unsupported, c); Unsupported + c
    case AskLlm(prompt) => LlmReply(assistant(prompt))
  }

  /** The LLM branch of `process_command`, from what the assistant returned. */
  function LlmReply(result: AssistantResult): (reply: string)
    ensures Prefix <= reply
  {
    match result
    case NoResult => Timeout
    case Raises(e) => PrefixedConcat(LlmFailed, e); LlmFailed + e
    case Text(s) => if IsBlank(s) then EmptyReply else PrefixedConcat(Prefix, s); Prefix + s
    case _ => PrefixedConcat(LlmFailed, DictHasNoStrip); LlmFailed + DictHasNoStrip
  }

  /** The reply body of `sync_llm_processing`, inside its `try`: no key, an
      exception, a truthy result rendered with `str`, or the empty-content note.
      `arkKey` is `os.environ.get('ARK_API_KEY')`. */
  function JobReply(userInput: string, arkKey: Option<string>,
                    assistant: string -> AssistantResult, show: AssistantResult -> string): (text: string)
    ensures Prefix <= text
  {
    if arkKey.None? || arkKey.value == "" then NoArkKey
    else
      var result := assistant(userInput);
      if result.Raises? then PrefixedConcat(JobFailed, result.error); JobFailed + result.error
      else if result.Truthy() then PrefixedConcat(Prefix, Render(result, show)); Prefix + Render(result, show)
      else EmptyReply
  }

  /** `sync_llm_processing`: send the reply, then (`finally`) drop the id from
      the table whatever happened. */
  function SyncLlmProcessing(tasks: Tasks, conversationId: string, userInput: string, arkKey: Option<string>,
                             assistant: string -> AssistantResult, show: AssistantResult -> string): (r: (Tasks, seq<Effect>))
    ensures r.0 == Finish(tasks, conversationId)
    ensures |r.1| == 1 && AllPrefixed(r.1)
  {
    (Finish(tasks, conversationId), [Send(JobReply(userInput, arkKey, assistant, show))])
  }

  /** `async_process_llm_message`: record the job (`now` is `time.time()`),
      then run it. */
  function AsyncProcessLlmMessage(tasks: Tasks, conversationId: string, userInput: string, now: real,
                                  arkKey: Option<string>, assistant: string -> AssistantResult,
                                  show: AssistantResult -> string): (r: (Tasks, seq<Effect>))
    ensures conversationId !in r.0
    ensures r.0 == tasks - {conversationId}
  {
    var running := Start(tasks, conversationId, now, userInput);
    SyncLlmProcessing(running, conversationId, userInput, arkKey, assistant, show)
  }

  /** What the webhook answers the caller: `{"success": true}`, with
      `"status": "processing"` for a background job, or HTTP 500. */
  datatype Answer = Accepted(processing: bool) | ServerError(detail: string)

  /** The webhook for a POSTed callback: its answer, the messages sent, and the
      table afterwards. A background job runs after the answer; here it runs to
      completion at once. */
  function Webhook(tasks: Tasks, msg: Inbound, dropAtTags: string -> string, now: real, clock: string,
                   arkKey: Option<string>, assistant: string -> AssistantResult,
                   show: AssistantResult -> string): (r: (Answer, seq<Effect>, Tasks))
    ensures r.0.ServerError? <==> RouteWebhook(msg, dropAtTags).BadContent?
    ensures AllPrefixed(r.1)
    ensures r.2.Keys <= tasks.Keys
  {
    Respond(tasks, RouteWebhook(msg, dropAtTags), now, clock, arkKey, assistant, show)
  }

  /** The webhook's action once the callback is routed. */
  function Respond(tasks: Tasks, routed: Routed, now: real, clock: string,
                   arkKey: Option<string>, assistant: string -> AssistantResult,
                   show: AssistantResult -> string): (r: (Answer, seq<Effect>, Tasks))
    ensures r.0.ServerError? <==> routed.BadContent?
    ensures AllPrefixed(r.1)
    ensures r.2.Keys <= tasks.Keys
  {
    match routed
    case NoText => (Accepted(false), [], tasks)
    case BadContent(detail) => (ServerError(detail), [], tasks)
    case Direct(command) => (Accepted(false), [Send(ProcessCommand(command, assistant, clock))], tasks)
    case Background(id, prompt) =>
      var (after, sent) := AsyncProcessLlmMessage(tasks, id, prompt, now, arkKey, assistant, show);
      RepliesArePrefixed();
      AllPrefixedConcat([Send(Thinking)], sent);
      (Accepted(true), [Send(Thinking)] + sent, after)
  }

  /* ---------------- properties ---------------- */

  /** The routes of `process_command`, in the system's words. */
  lemma ProcessCommandRoutes(command: string, assistant: string -> AssistantResult, clock: string)
    ensures var n := Normalize(command);
            var reply := ProcessCommand(command, assistant, clock);
            && (n == [] ==> reply == Help)
            && (n == "时间" ==> reply == TimeLead + clock)
            && (n != [] && n != "时间" && !("LLM" <= n) ==> reply == Unsupported + n)
            && (RouteOf(command).AskLlm? ==> reply == LlmReply(assistant(RouteOf(command).prompt)))
  {
  }

  /** In the LLM route: `None` is a timeout, a blank string the empty-content
      note, any dict an `AttributeError` reply, and a non-blank string is passed
      on after the prefix. */
  lemma LlmRouteReplies(result: AssistantResult)
    ensures var reply := LlmReply(result);
            && (result.NoResult? ==> reply == Timeout)
            && (result.Text? && IsBlank(result.s) ==> reply == EmptyReply)
            && (result.Text? && !IsBlank(result.s) ==> reply == Prefix + result.s)
            && (IsDict(result) ==> reply == LlmFailed + DictHasNoStrip)
            && (result.Raises? ==> reply == LlmFailed + result.error)
  {
  }

  /** A background job leaves the table without its conversation, whatever the
      assistant did, and sends exactly the job's reply after the "thinking"
      note. */
  lemma BackgroundJobCleansUp(tasks: Tasks, conversationId: string, prompt: string, now: real, clock: string,
                              arkKey: Option<string>, assistant: string -> AssistantResult,
                              show: AssistantResult -> string)
    ensures var r := Respond(tasks, Background(conversationId, prompt), now, clock, arkKey, assistant, show);
            && r.0 == Accepted(true)
            && conversationId !in r.2
            && r.2 == tasks - {conversationId}
            && r.1 == [Send(Thinking), Send(JobReply(prompt, arkKey, assistant, show))]
  {
  }

  /** Between the start of a job and its `finally`, `/debug/tasks` lists the
      conversation as running. */
  lemma RunningJobIsListed(tasks: Tasks, conversationId: string, userInput: string, now: real)
    ensures var listing := DebugTasks(Start(tasks, conversationId, now, userInput), now);
            conversationId in listing.tasks && listing.tasks[conversationId].status == "running"
            && listing.tasks[conversationId].userInput == userInput
  {
  }

  /** The job's reply: no key, then an exception, then truthiness decide it. */
  lemma JobReplyCases(userInput: string, arkKey: Option<string>,
                      assistant: string -> AssistantResult, show: AssistantResult -> string)
    ensures var text := JobReply(userInput, arkKey, assistant, show);
            var result := assistant(userInput);
            && ((arkKey.None? || arkKey == Some("")) ==> text == NoArkKey)
            && (arkKey.Some? && arkKey.value != "" && result.Raises? ==> text == JobFailed + result.error)
            && (arkKey.Some? && arkKey.value != "" && !result.Raises? && !result.Truthy() ==> text == EmptyReply)
            && (arkKey.Some? && arkKey.value != "" && result.Text? && result.s != "" ==> text == Prefix + result.s)
  {
  }

  /** A whitespace-only result is truthy, so it is sent as it is after the
      prefix, where `process_command` would have called it empty. */
  lemma BlankResultIsSentAsIs(userInput: string, arkKey: Option<string>, clock: string,
                              assistant: string -> AssistantResult, show: AssistantResult -> string)
    requires arkKey.Some? && arkKey.value != ""
    requires assistant(userInput) == Text(" ")
    ensures JobReply(userInput, arkKey, assistant, show) == Prefix + " "
  {
  }
}

=== FILE: pystr.dfy ===
/**
 Python's `str` operations that the bot relies on, with CPython's semantics:
 `isspace`, `find`, `in`, `strip`, slicing with negative bounds, `split`,
 `startswith`/`endswith`, and the two `re.sub` calls that delete a literal
 key or every `\s` character.
 */
module PyStr {

  /** CPython's whitespace test (`str.isspace`, also what `str.strip()` and the
      regular-expression class `\s` use on `str` patterns). */
  predicate IsSpace(c: char) {
    var n := c as int;
    || n == 0x20
    || (0x09 <= n <= 0x0D)
    || (0x1C <= n <= 0x1F)
    || n == 0x85
    || n == 0xA0
    || n == 0x1680
    || (0x2000 <= n <= 0x200A)
    || n == 0x2028
    || n == 0x2029
    || n == 0x202F
    || n == 0x205F
    || n == 0x3000
  }

  predicate NoSpace(s: string) {
    forall i :: 0 <= i < |s| ==> !IsSpace(s[i])
  }

  predicate AllSpace(s: string) {
    forall i :: 0 <= i < |s| ==> IsSpace(s[i])
  }

  /** `sub` occurs in `s` starting at index `k`. */
  predicate OccursAt(s: string, sub: string, k: int) {
    0 <= k && k + |sub| <= |s| && s[k..k + |sub|] == sub
  }

  /** `s.find(sub, start)`: the least index at or after `start` where `sub`
      occurs, or -1. */
  function Find(s: string, sub: string, start: nat): (r: int)
    ensures r == -1 || (start <= r && OccursAt(s, sub, r))
    ensures forall k :: start <= k && (r == -1 || k < r) ==> !OccursAt(s, sub, k)
    decreases |s| - start
  {
    if start + |sub| > |s| then -1
    else if s[start..start + |sub|] == sub then start
    else Find(s, sub, start + 1)
  }

  /** `sub in s`. */
  function Contains(s: string, sub: string): (b: bool)
    ensures b <==> exists k :: OccursAt(s, sub, k)
  {
    Find(s, sub, 0) != -1
  }

  /** `s.startswith(p)` is Dafny's prefix test `p <= s`; this is `s.endswith(p)`. */
  predicate EndsWith(s: string, p: string) {
    |p| <= |s| && s[|s| - |p|..] == p
  }

  /** Python's normalisation of one slice bound against a length `n`. */
  function Clamp(i: int, n: nat): (j: nat)
    ensures j <= n
    ensures 0 <= i <= n ==> j == i
    ensures -(n as int) <= i < 0 ==> j == n + i
  {
    if i < 0 then (if i + n < 0 then 0 else i + n)
    else if i > n then n
    else i
  }

  /** `s[lo:hi]` with Python's rules for negative and out-of-range bounds. */
  function Slice<T>(s: seq<T>, lo: int, hi: int): (r: seq<T>)
    ensures |r| <= |s|
    ensures 0 <= lo <= hi <= |s| ==> r == s[lo..hi]
    ensures 0 <= hi <= lo ==> r == []
  {
    var a := Clamp(lo, |s|);
    var b := Clamp(hi, |s|);
    if a < b then s[a..b] else []
  }

  /** `s.lstrip()`. */
  function TrimStart(s: string): (r: string)
    ensures |r| <= |s| && r == s[|s| - |r|..]
    ensures r == [] || !IsSpace(r[0])
    ensures AllSpace(s[..|s| - |r|])
  {
    if |s| > 0 && IsSpace(s[0]) then
      var r := TrimStart(s[1..]);
      assert s[1..][|s| - 1 - |r|..] == s[|s| - |r|..];
      assert forall i :: 1 <= i < |s| - |r| ==> s[i] == s[1..][..|s| - 1 - |r|][i - 1];
      r
    else s
  }

  /** `s.rstrip()`. */
  function TrimEnd(s: string): (r: string)
    ensures r <= s
    ensures r == [] || !IsSpace(r[|r| - 1])
    ensures AllSpace(s[|r|..])
  {
    if |s| > 0 && IsSpace(s[|s| - 1]) then
      var r := TrimEnd(s[..|s| - 1]);
      assert forall i :: |r| <= i < |s| - 1 ==> s[i] == s[..|s| - 1][|r|..][i - |r|];
      r
    else s
  }

  /** `r` is a window of `s` with only whitespace before and after it. */
  predicate SpaceAround(s: string, r: string) {
    exists i :: 0 <= i <= |s| - |r| && r == s[i..i + |r|] && AllSpace(s[..i]) && AllSpace(s[i + |r|..])
  }

  /** `s.strip()`: the window of `s` left after removing whitespace from both ends. */
  function Strip(s: string): (r: string)
    ensures |r| <= |s|
    ensures r == [] || (!IsSpace(r[0]) && !IsSpace(r[|r| - 1]))
  {
    TrimEnd(TrimStart(s))
  }

  /** What `strip` keeps is a window of `s` with only whitespace before and
      after it; with the contract of `Strip` (the window neither starts nor ends
      with whitespace) this pins the window down. */
  lemma StripIsWindow(s: string)
    ensures SpaceAround(s, Strip(s))
  {
    TrimBothIsWindow(s, TrimStart(s), Strip(s));
  }

  /** Trimming both ends keeps a window of `s` with only whitespace outside it. */
  lemma TrimBothIsWindow(s: string, t: string, r: string)
    requires t == TrimStart(s) && r == TrimEnd(t)
    ensures SpaceAround(s, r)
  {
    assert AllSpace(s[..|s| - |TrimStart(s)|]);
    WindowOfSuffix(s, t, r);
    SpaceAfterWindow(s, t, |r|);
    WindowWitness(s, r, |s| - |t|);
  }

  /** Names the window's start as the witness. */
  lemma WindowWitness(s: string, r: string, i: nat)
    requires i + |r| <= |s| && r == s[i..i + |r|] && AllSpace(s[..i]) && AllSpace(s[i + |r|..])
    ensures SpaceAround(s, r)
  {
  }

  /** What follows position `n` of the suffix `t` of `s` follows `|s| - |t| + n` in `s`. */
  lemma SpaceAfterWindow(s: string, t: string, n: nat)
    requires |t| <= |s| && t == s[|s| - |t|..] && n <= |t| && AllSpace(t[n..])
    ensures AllSpace(s[|s| - |t| + n..])
  {
    SliceOfSuffix(s, |s| - |t|, n);
  }

  /** A prefix `r` of the suffix `t` of `s` is a window of `s`. */
  lemma WindowOfSuffix<T>(s: seq<T>, t: seq<T>, r: seq<T>)
    requires |t| <= |s| && t == s[|s| - |t|..] && r <= t
    ensures r == s[|s| - |t|..|s| - |t| + |r|]
  {
    assert r == t[..|r|];
  }

  /** A slice of the suffix `s[i..]` is a slice of `s` shifted by `i`. */
  lemma SliceOfSuffix<T>(s: seq<T>, i: nat, j: nat)
    requires i + j <= |s|
    ensures s[i..][..j] == s[i..i + j] && s[i..][j..] == s[i + j..]
  {
  }

  /** Among ASCII characters, the whitespace is space, tab, line feed, vertical
      tab, form feed, carriage return and the four separators 0x1C-0x1F. */
  lemma AsciiSpaces(c: char)
    requires c as int < 0x80
    ensures IsSpace(c) <==>
              c in {' ', '\t', '\n', '\U{B}', '\U{C}', '\r', '\U{1C}', '\U{1D}', '\U{1E}', '\U{1F}'}
  {
  }

  /** Python's `not s.strip()`. */
  predicate IsBlank(s: string) {
    Strip(s) == []
  }

  /** `s.split(sep)` for a non-empty separator (Python raises on an empty one). */
  function Split(s: string, sep: string): (parts: seq<string>)
    requires |sep| > 0
    ensures |parts| >= 1
    ensures forall i :: 0 <= i < |parts| ==> !Contains(parts[i], sep)
    ensures Join(parts, sep) == s
    decreases |s|
  {
    var i := Find(s, sep, 0);
    if i == -1 then [s]
    else
      var head := s[..i];
      var tail := Split(s[i + |sep|..], sep);
      assert forall k :: OccursAt(head, sep, k) ==> OccursAt(s, sep, k) by {
        forall k | OccursAt(head, sep, k) ensures OccursAt(s, sep, k) {
          assert head[k..k + |sep|] == s[k..k + |sep|];
        }
      }
      assert s == head + sep + s[i + |sep|..] by {
        assert s[i..i + |sep|] == sep;
        assert s == s[..i] + s[i..i + |sep|] + s[i + |sep|..];
      }
      [head] + tail
  }

  /** `sep.join(parts)`. */
  function Join(parts: seq<string>, sep: string): string
    requires |parts| >= 1
  {
    if |parts| == 1 then parts[0] else parts[0] + sep + Join(parts[1..], sep)
  }

  /** `re.sub(re.escape(key), '', s)`: deletes the non-overlapping occurrences of
      `key` found scanning left to right. */
  function RemoveAll(s: string, key: string): (r: string)
    requires |key| > 0
    ensures |r| <= |s|
    ensures !Contains(s, key) ==> r == s
    decreases |s|
  {
    var i := Find(s, key, 0);
    if i == -1 then s else s[..i] + RemoveAll(s[i + |key|..], key)
  }

  /** `re.sub(r'\s', '', s)`: deletes every whitespace character. */
  function RemoveSpaces(s: string): (r: string)
    ensures NoSpace(r)
    ensures |r| <= |s|
  {
    if |s| == 0 then []
    else (if IsSpace(s[0]) then [] else [s[0]]) + RemoveSpaces(s[1..])
  }

  /* ---------------- facts about the operations above ---------------- */

  predicate NoChar(s: string, c: char) {
    forall i :: 0 <= i < |s| ==> s[i] != c
  }

  /** An occurrence of `sub` begins with `sub`'s first character. */
  lemma OccurrenceStartsWithHead(s: string, sub: string)
    requires |sub| > 0
    ensures forall j :: OccursAt(s, sub, j) ==> s[j] == sub[0]
  {
    forall j | OccursAt(s, sub, j) ensures s[j] == sub[0] {
      assert s[j..j + |sub|][0] == s[j];
    }
  }

  /** `sub` occurs at `k` and nowhere before it. */
  predicate FirstOccurrence(s: string, sub: string, k: int) {
    OccursAt(s, sub, k) && forall j :: 0 <= j < k ==> !OccursAt(s, sub, j)
  }

  /** `find` from `start` is the first occurrence at or after `start`. */
  lemma FindIsFirst(s: string, sub: string, start: nat, k: nat)
    requires start <= k && OccursAt(s, sub, k)
    requires forall j :: start <= j < k ==> !OccursAt(s, sub, j)
    ensures Find(s, sub, start) == k
  {
  }

  /** `find` from `start` is -1 when nothing occurs at or after `start`. */
  lemma FindIsAbsent(s: string, sub: string, start: nat)
    requires forall j :: start <= j ==> !OccursAt(s, sub, j)
    ensures Find(s, sub, start) == -1
  {
  }

  /** An occurrence that ends inside `a` is an occurrence in `a + b`, and back. */
  lemma OccursInPrefix(a: string, b: string, sub: string, j: nat)
    requires j + |sub| <= |a|
    ensures OccursAt(a + b, sub, j) <==> OccursAt(a, sub, j)
  {
    assert (a + b)[j..j + |sub|] == a[j..j + |sub|];
  }

  /** An occurrence inside `b` sits `|a|` further on in `a + b`. */
  lemma OccursShifted(a: string, b: string, sub: string, p: nat)
    ensures OccursAt(a + b, sub, |a| + p) <==> OccursAt(b, sub, p)
  {
    if |a| + p + |sub| <= |a + b| {
      assert (a + b)[|a| + p..|a| + p + |sub|] == b[p..p + |sub|];
    }
  }

  /** A first occurrence stays first when text is appended. */
  lemma FirstOccurrenceAppend(p: string, sub: string, rest: string)
    requires FirstOccurrence(p + sub, sub, |p|)
    ensures FirstOccurrence(p + sub + rest, sub, |p|)
  {
    var a := p + sub;
    OccursInPrefix(a, rest, sub, |p|);
    forall j | 0 <= j < |p| ensures !OccursAt(a + rest, sub, j) {
      OccursInPrefix(a, rest, sub, j);
    }
  }

  /** The `sub` closing `x` is, in `a + (x + sub + y)`, the first one from `|a|` on. */
  lemma FirstOccurrenceAfter(a: string, x: string, sub: string, y: string)
    requires FirstOccurrence(x + sub, sub, |x|)
    ensures OccursAt(a + (x + sub + y), sub, |a| + |x|)
    ensures forall j :: |a| <= j < |a| + |x| ==> !OccursAt(a + (x + sub + y), sub, j)
  {
    var closed := x + sub;
    var rest := closed + y;
    OccursShifted(a, rest, sub, |x|);
    OccursInPrefix(closed, y, sub, |x|);
    forall j | |a| <= j < |a| + |x| ensures !OccursAt(a + rest, sub, j) {
      OccursShifted(a, rest, sub, j - |a|);
      OccursInPrefix(closed, y, sub, j - |a|);
    }
  }

  /** Nothing from `|a|` on matches when `b` does not hold `sub`. */
  lemma AbsentAfter(a: string, b: string, sub: string)
    requires !Contains(b, sub)
    ensures forall j :: |a| <= j ==> !OccursAt(a + b, sub, j)
  {
    forall j | |a| <= j ensures !OccursAt(a + b, sub, j) {
      OccursShifted(a, b, sub, j - |a|);
    }
  }

  /** When `a` holds no character that starts `sub`, the `sub` appended to `a`
      is its first occurrence. */
  lemma FirstAfterNoHead(a: string, sub: string)
    requires |sub| > 0 && NoChar(a, sub[0])
    ensures FirstOccurrence(a + sub, sub, |a|)
  {
    var s := a + sub;
    assert s[|a|..|a| + |sub|] == sub;
    OccurrenceStartsWithHead(s, sub);
    forall j | 0 <= j < |a| ensures !OccursAt(s, sub, j) {
      assert s[j] == a[j];
    }
  }

  /** `find` stops at the first index whose character can start `sub`. */
  lemma FindAt(s: string, sub: string, start: nat, k: nat)
    requires |sub| > 0 && start <= k && OccursAt(s, sub, k)
    requires forall j :: start <= j < k ==> s[j] != sub[0]
    ensures Find(s, sub, start) == k
  {
    OccurrenceStartsWithHead(s, sub);
  }

  /** `find` reports -1 when no character from `start` on can start `sub`. */
  lemma FindAbsent(s: string, sub: string, start: nat)
    requires |sub| > 0
    requires forall j :: start <= j < |s| ==> s[j] != sub[0]
    ensures Find(s, sub, start) == -1
  {
    OccurrenceStartsWithHead(s, sub);
  }

  /** A character absent from a suffix is absent from the indices it covers. */
  lemma NoCharTail(s: string, start: nat, c: char)
    requires start <= |s| && NoChar(s[start..], c)
    ensures forall j :: start <= j < |s| ==> s[j] != c
  {
    forall j | start <= j < |s| ensures s[j] != c {
      assert s[j] == s[start..][j - start];
    }
  }

  /** `(a + b)[len(a):-1]` is `b[0:-1]`. */
  lemma SliceToLastOfSuffix<T>(a: seq<T>, b: seq<T>)
    ensures Slice(a + b, |a|, -1) == Slice(b, 0, -1)
  {
    if |b| > 0 {
      assert (a + b)[|a|..|a + b| - 1] == b[..|b| - 1];
    }
  }

  /** Stripping a string that has no whitespace leaves it unchanged. */
  lemma {:induction false} StripNoSpace(s: string)
    requires NoSpace(s)
    ensures Strip(s) == s
  {
    assert s == [] || !IsSpace(s[0]);
    assert TrimStart(s) == s;
    assert s == [] || !IsSpace(s[|s| - 1]);
    assert TrimEnd(s) == s;
  }

  /** `s.strip()` is empty exactly when every character of `s` is whitespace. */
  lemma BlankIffAllSpace(s: string)
    ensures IsBlank(s) <==> AllSpace(s)
  {
    if AllSpace(s) {
      assert s[..|s|] == s;
      TrimStartAt(s, |s|);
      assert s[|s|..] == [];
    }
    if IsBlank(s) {
      var t := TrimStart(s);
      var n := |s| - |t|;
      assert AllSpace(t) by { assert t[0..] == t; }
      assert s == s[..n] + t;
      AllSpaceConcat(s[..n], t);
    }
  }

  lemma AllSpaceConcat(a: string, b: string)
    requires AllSpace(a) && AllSpace(b)
    ensures AllSpace(a + b)
  {
    assert forall i :: |a| <= i < |a + b| ==> (a + b)[i] == b[i - |a|];
  }

  /** `strip` is idempotent. */
  lemma StripIdempotent(s: string)
    ensures Strip(Strip(s)) == Strip(s)
  {
    var r := Strip(s);
    if r != [] {
      assert TrimStart(r) == r;
      assert TrimEnd(r) == r;
    }
  }

  /** Leading whitespace does not change `strip`. */
  lemma StripAfterTrimStart(s: string)
    ensures Strip(TrimStart(s)) == Strip(s)
  {
    var t := TrimStart(s);
    assert TrimStart(t) == t;
  }

  /** Deleting a key with `re.sub` is `''.join(s.split(key))`. */
  lemma {:induction false} RemoveAllIsJoinOfSplit(s: string, key: string)
    requires |key| > 0
    ensures RemoveAll(s, key) == Join(Split(s, key), "")
    decreases |s|
  {
    var i := Find(s, key, 0);
    if i != -1 {
      var rest := s[i + |key|..];
      var parts := Split(rest, key);
      RemoveAllIsJoinOfSplit(rest, key);
      assert RemoveAll(s, key) == s[..i] + RemoveAll(rest, key);
      var whole := [s[..i]] + parts;
      assert Split(s, key) == whole;
      assert whole[0] == s[..i] && whole[1..] == parts && |whole| > 1;
      assert Join(whole, "") == s[..i] + "" + Join(parts, "");
    }
  }

  /** Splitting at a separator none of whose first characters precede it. */
  lemma SplitAt(a: string, sep: string, b: string)
    requires |sep| > 0 && NoChar(a, sep[0])
    ensures Split(a + sep + b, sep) == [a] + Split(b, sep)
  {
    var s := a + sep + b;
    assert s[|a|..|a| + |sep|] == sep;
    FindAt(s, sep, 0, |a|);
    assert s[..|a|] == a;
    assert s[|a| + |sep|..] == b;
  }

  /** With no separator in it, `s.split(sep)` is `[s]`. */
  lemma SplitWhole(s: string, sep: string)
    requires |sep| > 0 && NoChar(s, sep[0])
    ensures Split(s, sep) == [s]
  {
    FindAbsent(s, sep, 0);
  }

  /** Deleting whitespace from a string that has none leaves it unchanged. */
  lemma {:induction false} RemoveSpacesNoSpace(s: string)
    requires NoSpace(s)
    ensures RemoveSpaces(s) == s
  {
    if |s| > 0 {
      RemoveSpacesNoSpace(s[1..]);
      assert [s[0]] + s[1..] == s;
    }
  }

  /** How many characters of `s` are not whitespace. */
  function NonSpaceCount(s: string): nat {
    if |s| == 0 then 0 else (if IsSpace(s[0]) then 0 else 1) + NonSpaceCount(s[1..])
  }

  /** `re.sub(r'\s', '', s)` keeps every other character, and only those, in
      their order: the non-whitespace character at index `j` lands at the index
      that counts the non-whitespace characters before it, and nothing else is
      kept. */
  lemma {:induction false} RemoveSpacesKeepsOthers(s: string)
    ensures forall c :: c in RemoveSpaces(s) <==> c in s && !IsSpace(c)
    ensures |RemoveSpaces(s)| == NonSpaceCount(s)
    ensures forall j :: 0 <= j < |s| && !IsSpace(s[j]) ==> KeptCharAt(s, j)
  {
    if |s| > 0 {
      var t := s[1..];
      RemoveSpacesKeepsOthers(t);
      assert s == [s[0]] + t;
      assert forall c :: c in s <==> c == s[0] || c in t;
      forall j | 0 <= j < |s| && !IsSpace(s[j]) ensures KeptCharAt(s, j) {
        if j == 0 {
          assert s[..0] == [];
        } else {
          assert t[j - 1] == s[j];
          KeptCharAfterHead(s, j);
        }
      }
    }
  }

  /** The non-whitespace character at `j` is kept at its rank. */
  predicate KeptCharAt(s: string, j: nat)
    requires j < |s|
  {
    NonSpaceCount(s[..j]) < |RemoveSpaces(s)| && RemoveSpaces(s)[NonSpaceCount(s[..j])] == s[j]
  }

  lemma KeptCharAfterHead(s: string, j: nat)
    requires 0 < j < |s| && KeptCharAt(s[1..], j - 1)
    ensures KeptCharAt(s, j)
  {
    var t := s[1..];
    var head := if IsSpace(s[0]) then [] else [s[0]];
    var tail := RemoveSpaces(t);
    var k := NonSpaceCount(t[..j - 1]);
    assert RemoveSpaces(s) == head + tail;
    assert NonSpaceCount(s[..j]) == |head| + k by {
      assert s[..j][1..] == t[..j - 1] && s[..j][0] == s[0];
    }
    assert k < |tail| && tail[k] == s[j] by {
      assert t[j - 1] == s[j];
    }
    IndexAfterHead(RemoveSpaces(s), head, tail, NonSpaceCount(s[..j]), k);
  }

  /** Four pieces joined left to right, regrouped to the right. */
  lemma GroupRight<T>(a: seq<T>, b: seq<T>, c: seq<T>, d: seq<T>)
    ensures a + b + c + d == a + (b + (c + d))
  {
  }

  /** Indexing past a head lands in the tail. */
  lemma IndexAfterHead<T>(r: seq<T>, head: seq<T>, tail: seq<T>, n: nat, k: nat)
    requires r == head + tail && n == |head| + k && k < |tail|
    ensures n < |r| && r[n] == tail[k]
  {
  }

  /** Whitespace deletion works piece by piece. */
  lemma {:induction false} RemoveSpacesAppend(a: string, b: string)
    ensures RemoveSpaces(a + b) == RemoveSpaces(a) + RemoveSpaces(b)
  {
    if |a| > 0 {
      RemoveSpacesAppend(a[1..], b);
      assert (a + b)[1..] == a[1..] + b;
      assert (a + b)[0] == a[0];
    } else {
      assert a + b == b;
    }
  }

  /** `lstrip` stops at the first non-whitespace character. */
  lemma {:induction false} TrimStartAt(s: string, i: nat)
    requires i <= |s| && AllSpace(s[..i]) && (i == |s| || !IsSpace(s[i]))
    ensures TrimStart(s) == s[i..]
    decreases i
  {
    if i > 0 {
      assert IsSpace(s[0]) by { assert s[..i][0] == s[0]; }
      var t := s[1..];
      var head := t[..i - 1];
      assert AllSpace(head) by {
        forall k | 0 <= k < |head| ensures IsSpace(head[k]) {
          assert head[k] == s[..i][k + 1];
        }
      }
      assert i - 1 == |t| || t[i - 1] == s[i];
      TrimStartAt(t, i - 1);
      assert t[i - 1..] == s[i..];
    }
  }

  /** `rstrip` stops after the last non-whitespace character. */
  lemma {:induction false} TrimEndAt(s: string, j: nat)
    requires j <= |s| && AllSpace(s[j..]) && (j == 0 || !IsSpace(s[j - 1]))
    ensures TrimEnd(s) == s[..j]
    decreases |s| - j
  {
    if j < |s| {
      assert IsSpace(s[|s| - 1]) by { assert s[j..][|s| - 1 - j] == s[|s| - 1]; }
      var t := s[..|s| - 1];
      assert AllSpace(t[j..]) by {
        forall k | 0 <= k < |t| - j ensures IsSpace(t[j..][k]) {
          assert t[j..][k] == s[j..][k];
        }
      }
      assert j == 0 || t[j - 1] == s[j - 1];
      TrimEndAt(t, j);
      assert t[..j] == s[..j];
    }
  }

  /** `rstrip` of `p + b`, when `p` ends in a non-whitespace character. */
  lemma TrimEndAppend(p: string, b: string)
    requires |p| > 0 && !IsSpace(p[|p| - 1])
    ensures TrimEnd(p + b) == p + TrimEnd(b)
  {
    var e := |TrimEnd(b)|;
    var s := p + b;
    assert s[|p| + e..] == b[e..];
    assert s[|p| + e - 1] == if e > 0 then b[e - 1] else p[|p| - 1];
    assert e > 0 ==> TrimEnd(b)[e - 1] == b[e - 1];
    TrimEndAt(s, |p| + e);
    assert s[..|p| + e] == p + b[..e];
  }

  /** `strip` keeps exactly the window between the first and the last
      non-whitespace characters. */
  lemma StripWindow(s: string, i: nat, j: nat)
    requires i < j <= |s| && AllSpace(s[..i]) && AllSpace(s[j..])
    requires !IsSpace(s[i]) && !IsSpace(s[j - 1])
    ensures Strip(s) == s[i..j]
  {
    TrimStartAt(s, i);
    TrimEndOfSuffix(s, i, j);
  }

  lemma TrimEndOfSuffix(s: string, i: nat, j: nat)
    requires i < j <= |s| && AllSpace(s[j..]) && !IsSpace(s[j - 1])
    ensures TrimEnd(s[i..]) == s[i..j]
  {
    var u := s[i..];
    assert u[j - i..] == s[j..];
    assert u[j - i - 1] == s[j - 1];
    TrimEndAt(u, j - i);
    assert u[..j - i] == s[i..j];
  }

  /** A string that starts and ends with non-whitespace is its own `strip`. */
  lemma StripUnchanged(s: string)
    requires |s| > 0 && !IsSpace(s[0]) && !IsSpace(s[|s| - 1])
    ensures Strip(s) == s
  {
    assert s[..0] == [] && s[|s|..] == [];
    StripWindow(s, 0, |s|);
    assert s[0..|s|] == s;
  }

  /** `s.rstrip().strip()` is `s.strip()`. */
  lemma StripOfTrimEnd(b: string)
    ensures Strip(TrimEnd(b)) == Strip(b)
  {
    if |TrimEnd(b)| == 0 {
      StripOfTrimEndBlank(b);
    } else {
      StripOfTrimEndNonBlank(b);
    }
  }

  lemma StripOfTrimEndBlank(b: string)
    requires |TrimEnd(b)| == 0
    ensures Strip(TrimEnd(b)) == Strip(b) == []
  {
    assert AllSpace(b[0..]);
    assert b[0..] == b;
    BlankIffAllSpace(b);
  }

  lemma StripOfTrimEndNonBlank(b: string)
    requires |TrimEnd(b)| > 0
    ensures Strip(TrimEnd(b)) == Strip(b)
  {
    var e := |TrimEnd(b)|;
    var i := |b| - |TrimStart(b)|;
    assert !IsSpace(b[e - 1]) by { assert TrimEnd(b)[e - 1] == b[e - 1]; }
    SpacePrefixBound(b, i, e - 1);
    assert !IsSpace(b[i]) by { assert TrimStart(b)[0] == b[i]; }
    StripOfTrimEndAt(b, i, e);
  }

  /** A non-whitespace character lies beyond any all-whitespace prefix. */
  lemma SpacePrefixBound(s: string, i: nat, k: nat)
    requires i <= |s| && k < |s| && AllSpace(s[..i]) && !IsSpace(s[k])
    ensures i <= k
  {
    assert forall j | 0 <= j < i :: s[..i][j] == s[j];
  }

  lemma StripOfTrimEndAt(b: string, i: nat, e: nat)
    requires i < e <= |b| && AllSpace(b[..i]) && AllSpace(b[e..])
    requires !IsSpace(b[i]) && !IsSpace(b[e - 1])
    ensures Strip(TrimEnd(b)) == Strip(b)
  {
    TrimEndAt(b, e);
    StripWindow(b, i, e);
    StripOfPrefix(b, i, e);
  }

  lemma StripOfPrefix(b: string, i: nat, e: nat)
    requires i < e <= |b| && AllSpace(b[..i]) && !IsSpace(b[i]) && !IsSpace(b[e - 1])
    ensures Strip(b[..e]) == b[i..e]
  {
    var t := b[..e];
    assert AllSpace(t[..i]) by { assert t[..i] == b[..i]; }
    assert AllSpace(t[e..]) by { assert t[e..] == []; }
    assert !IsSpace(t[i]) && !IsSpace(t[e - 1]) by { assert t[i] == b[i] && t[e - 1] == b[e - 1]; }
    StripWindow(t, i, e);
    assert t[i..e] == b[i..e];
  }

  /** `strip` of a string that starts with a non-whitespace character `p`. */
  lemma StripAfterWord(p: string, b: string)
    requires |p| > 0 && NoSpace(p)
    ensures Strip(p + b) == p + TrimEnd(b)
  {
    assert (p + b)[..0] == [];
    TrimStartAt(p + b, 0);
    assert (p + b)[0..] == p + b;
    TrimEndAppend(p, b);
  }
}

=== FILE: registry.dfy ===
/**
 `processing_tasks`, the servers' table of background LLM jobs keyed by
 conversation id, and the `/debug/tasks` listing built from it. Jobs run one
 after another here: the table is a value, and each step returns the next one.
 */
module Registry {
  import opened Wrappers

  /** The `{"start_time", "user_input"}` entry of a job. */
  datatype TaskInfo = TaskInfo(startTime: real, userInput: string)

  type Tasks = map<string, TaskInfo>

  /** `processing_tasks[id] = {...}`: a later job for the same conversation
      overwrites the earlier entry. */
  function Start(tasks: Tasks, id: string, now: real, userInput: string): (r: Tasks)
    ensures r.Keys == tasks.Keys + {id}
    ensures r[id] == TaskInfo(now, userInput)
    ensures forall other :: other in tasks && other != id ==> r[other] == tasks[other]
  {
    tasks[id := TaskInfo(now, userInput)]
  }

  /** `if id in processing_tasks: del processing_tasks[id]` in the `finally`
      clause. */
  function Finish(tasks: Tasks, id: string): (r: Tasks)
    ensures id !in r
    ensures r.Keys == tasks.Keys - {id}
    ensures forall other :: other in r ==> r[other] == tasks[other]
  {
    if id in tasks then tasks - {id} else tasks
  }

  /* ---------------- runs of jobs ---------------- */

  /** What happens to the table: a job starts, or a job's `finally` runs. */
  datatype Event = Started(id: string, info: TaskInfo) | Finished(id: string)

  function Step(tasks: Tasks, e: Event): Tasks {
    match e
    case Started(id, info) => Start(tasks, id, info.startTime, info.userInput)
    case Finished(id) => Finish(tasks, id)
  }

  /** The table after a sequence of events. */
  function Run(tasks: Tasks, trace: seq<Event>): Tasks
    decreases |trace|
  {
    if |trace| == 0 then tasks else Run(Step(tasks, trace[0]), trace[1..])
  }

  /** The last event of `trace` about conversation `id`, if any. */
  function LastTouch(trace: seq<Event>, id: string): (e: Option<Event>)
    ensures e.Some? ==> e.value.id == id && e.value in trace
    ensures e.None? <==> forall i :: 0 <= i < |trace| ==> trace[i].id != id
    decreases |trace|
  {
    if |trace| == 0 then None
    else if trace[|trace| - 1].id == id then Some(trace[|trace| - 1])
    else LastTouch(trace[..|trace| - 1], id)
  }

  lemma RunAppend(tasks: Tasks, trace: seq<Event>, e: Event)
    ensures Run(tasks, trace + [e]) == Step(Run(tasks, trace), e)
    decreases |trace|
  {
    if |trace| > 0 {
      assert (trace + [e])[1..] == trace[1..] + [e];
      RunAppend(Step(tasks, trace[0]), trace[1..], e);
    } else {
      assert ([e])[1..] == [];
    }
  }

  /** An id is in the table exactly when the last event about it started a job
      (or, with no such event, when it was there to begin with), and its entry
      is the one that job wrote. In particular one job's `finally` removes the
      entry of any other job running for the same conversation. */
  lemma {:induction false} RunTracksLastTouch(tasks: Tasks, trace: seq<Event>, id: string)
    ensures var last := LastTouch(trace, id);
            && (id in Run(tasks, trace) <==> (last.Some? && last.value.Started?) || (last.None? && id in tasks))
            && (last.Some? && last.value.Started? ==> Run(tasks, trace)[id] == last.value.info)
            && (last.None? && id in tasks ==> Run(tasks, trace)[id] == tasks[id])
    decreases |trace|
  {
    if |trace| > 0 {
      var init := trace[..|trace| - 1];
      var e := trace[|trace| - 1];
      assert trace == init + [e];
      RunAppend(tasks, init, e);
      RunTracksLastTouch(tasks, init, id);
    }
  }

  /** Two messages from one conversation: the second job overwrites the first
      entry, and when the second finishes the conversation disappears from the
      table although the first job is still running. */
  lemma SharedIdHidesLiveTask(id: string, a: TaskInfo, b: TaskInfo)
    ensures var trace := [Started(id, a), Started(id, b), Finished(id)];
            id !in Run(map[], trace)
  {
    var trace := [Started(id, a), Started(id, b), Finished(id)];
    RunTracksLastTouch(map[], trace, id);
  }

  /* ---------------- /debug/tasks ---------------- */

  /** Seconds after which a job is reported as stuck. */
  const StuckAfter: real := 300.0

  /** One row of the listing. */
  datatype TaskView = TaskView(userInput: string, durationSeconds: real, status: string)

  /** The listing: `active_tasks_count`, `server_time`, `active_tasks`. */
  datatype Listing = Listing(count: nat, serverTime: real, tasks: map<string, TaskView>)

  /** The status rule of `debug_tasks`. */
  function Status(info: TaskInfo, now: real): (s: string)
    ensures s == "running" <==> now - info.startTime < StuckAfter
    ensures s == "stuck" <==> !(now - info.startTime < StuckAfter)
  {
    if now - info.startTime < StuckAfter then "running" else "stuck"
  }

  /** `debug_tasks`: one row per entry of the table, with the elapsed time and
      its status. */
  function DebugTasks(tasks: Tasks, now: real): (l: Listing)
    ensures l.tasks.Keys == tasks.Keys && l.count == |tasks|
    ensures l.serverTime == now
    ensures forall id :: id in tasks ==>
              && l.tasks[id].userInput == tasks[id].userInput
              && l.tasks[id].durationSeconds == now - tasks[id].startTime
              && l.tasks[id].status == Status(tasks[id], now)
              && (l.tasks[id].status == "running" <==> now - tasks[id].startTime < StuckAfter)
              && (l.tasks[id].status == "stuck" <==> !(now - tasks[id].startTime < StuckAfter))
  {
    var active := map id | id in tasks :: TaskView(tasks[id].userInput, now - tasks[id].startTime, Status(tasks[id], now));
    assert active.Keys == tasks.Keys;
    assert |active| == |active.Keys| == |tasks.Keys| == |tasks|;
    Listing(|active|, now, active)
  }

  /** A job that just started is listed as running. */
  lemma JustStartedIsRunning(tasks: Tasks, id: string, now: real, userInput: string)
    ensures DebugTasks(Start(tasks, id, now, userInput), now).tasks[id].status == "running"
  {
  }

  /** Once stuck, a job stays stuck as time passes. */
  lemma StuckStaysStuck(tasks: Tasks, id: string, now: real, later: real)
    requires id in tasks && now <= later
    requires DebugTasks(tasks, now).tasks[id].status == "stuck"
    ensures DebugTasks(tasks, later).tasks[id].status == "stuck"
  {
  }

  /** A finished job is no longer listed, and the count drops by one. */
  lemma FinishedJobIsNotListed(tasks: Tasks, id: string, now: real)
    requires id in tasks
    ensures id !in DebugTasks(Finish(tasks, id), now).tasks
    ensures DebugTasks(Finish(tasks, id), now).count == DebugTasks(tasks, now).count - 1
  {
  }
}

=== FILE: test_agent.dfy ===
/**
 Test.py: the command-line agent with a bounded conversation memory, a second
 variant of tool-call extraction (which raises `ValueError` on a bad
 candidate), and a toolkit whose only tool sends mail through QQ's SMTP server.

 The LLM, `json.loads` and Python's `str()` of non-string values are
 parameters; the SMTP session is the opaque outcome `SmtpSend`.
 */
module TestAgent {
  import opened Wrappers
  import opened PyStr
  import opened Json
  import AgentTools

  /* ---------------- AgentMemory ---------------- */

  datatype Message = Message(role: string, content: string)

  /** `AgentMemory`: the system prompt, the history and its bound. */
  datatype Memory = Memory(systemPrompt: string, history: seq<Message>, maxHistory: int)

  /** `AgentMemory(max_history=10)`: an empty history. */
  function NewMemory(systemPrompt: string, maxHistory: int := 10): (m: Memory)
    ensures m.history == [] && m.maxHistory == maxHistory
  {
    Memory(systemPrompt, [], maxHistory)
  }

  /** The last `n` elements of `s` (all of them when `s` is shorter). */
  function LastN<T>(s: seq<T>, n: nat): (r: seq<T>)
    ensures |r| == if n < |s| then n else |s|
    ensures r <= s || n < |s|
  {
    if n < |s| then s[|s| - n..] else s
  }

  /** `add_message`: append, then keep `history[-max_history:]` when the history
      is longer than `max_history`. */
  function AddMessage(m: Memory, role: string, content: string): (m': Memory)
    ensures m'.systemPrompt == m.systemPrompt && m'.maxHistory == m.maxHistory
    ensures m.maxHistory >= 0 ==> |m'.history| > 0 && m'.history[|m'.history| - 1] == Message(role, content)
    ensures m.maxHistory >= 1 ==> |m'.history| <= m.maxHistory
    ensures m.maxHistory >= 1 ==> m'.history == LastN(m.history + [Message(role, content)], m.maxHistory)
    ensures |m.history| < m.maxHistory ==> m'.history == m.history + [Message(role, content)]
  {
    var h := m.history + [Message(role, content)];
    if |h| > m.maxHistory then m.(history := Slice(h, -m.maxHistory, |h|))
    else m.(history := h)
  }

  /** `get_messages`: the system prompt as a "system" message, then the history. */
  function GetMessages(m: Memory): (r: seq<Message>)
    ensures |r| == |m.history| + 1
    ensures r[0] == Message("system", m.systemPrompt)
    ensures r[1..] == m.history
  {
    [Message("system", m.systemPrompt)] + m.history
  }

  /** A run of `add_message` calls, in order. */
  function AddAll(m: Memory, msgs: seq<Message>): Memory
    decreases |msgs|
  {
    if |msgs| == 0 then m
    else AddAll(AddMessage(m, msgs[0].role, msgs[0].content), msgs[1..])
  }

  /** The history is a sliding window: after any run of `add_message` calls it
      holds the last `max_history` messages ever added, in order. */
  lemma {:induction false} HistoryIsSlidingWindow(m: Memory, msgs: seq<Message>)
    requires m.maxHistory >= 1 && |m.history| <= m.maxHistory
    ensures AddAll(m, msgs).history == LastN(m.history + msgs, m.maxHistory)
    decreases |msgs|
  {
    if |msgs| > 0 {
      var m1 := AddMessage(m, msgs[0].role, msgs[0].content);
      AddMessageWindow(m, msgs[0]);
      HistoryIsSlidingWindow(m1, msgs[1..]);
      SlidingStep(m, msgs);
    }
  }

  /** The window after the first message, extended by the rest. */
  lemma SlidingStep(m: Memory, msgs: seq<Message>)
    requires m.maxHistory >= 1 && |msgs| > 0
    requires var m1 := AddMessage(m, msgs[0].role, msgs[0].content);
             AddAll(m1, msgs[1..]).history == LastN(m1.history + msgs[1..], m.maxHistory)
    ensures AddAll(m, msgs).history == LastN(m.history + msgs, m.maxHistory)
  {
    var n := m.maxHistory;
    var h1 := m.history + [msgs[0]];
    var m1 := AddMessage(m, msgs[0].role, msgs[0].content);
    assert m1.history == LastN(h1, n) by {
      AddMessageWindow(m, msgs[0]);
    }
    calc {
      AddAll(m, msgs).history;
      AddAll(m1, msgs[1..]).history;
      LastN(LastN(h1, n) + msgs[1..], n);
      { WindowOfWindow(h1, msgs[1..], n); }
      LastN(h1 + msgs[1..], n);
      { HeadThenRest(m.history, msgs); }
      LastN(m.history + msgs, n);
    }
  }

  lemma HeadThenRest<T>(h: seq<T>, s: seq<T>)
    requires |s| > 0
    ensures h + [s[0]] + s[1..] == h + s
  {
    assert s == [s[0]] + s[1..];
  }

  /** One `add_message` keeps the last `max_history` messages. */
  lemma AddMessageWindow(m: Memory, msg: Message)
    requires m.maxHistory >= 1
    ensures var m1 := AddMessage(m, msg.role, msg.content);
            && m1.history == LastN(m.history + [msg], m.maxHistory)
            && m1.maxHistory == m.maxHistory && |m1.history| <= m.maxHistory
  {
    assert msg == Message(msg.role, msg.content);
  }

  /** Keeping the last `n` and then appending and keeping the last `n` again is
      the same as keeping the last `n` of everything. */
  lemma WindowOfWindow<T>(h: seq<T>, rest: seq<T>, n: nat)
    ensures LastN(LastN(h, n) + rest, n) == LastN(h + rest, n)
  {
    if n < |h| {
      var w := h[|h| - n..];
      var pre := h[..|h| - n];
      assert h + rest == pre + (w + rest);
      LastNOfLongSuffix(pre, w + rest, n);
    }
  }

  lemma LastNOfLongSuffix<T>(pre: seq<T>, x: seq<T>, n: nat)
    requires n <= |x|
    ensures LastN(pre + x, n) == LastN(x, n)
  {
    assert (pre + x)[|pre + x| - n..] == x[|x| - n..];
  }

  /** `max_history = 0` makes the slice `history[-0:]`, which keeps everything:
      the bound is then never enforced. */
  lemma ZeroBoundKeepsAll(m: Memory, role: string, content: string)
    requires m.maxHistory == 0
    ensures AddMessage(m, role, content).history == m.history + [Message(role, content)]
  {
  }

  /* ---------------- Toolkit ---------------- */

  /** `Toolkit`: the stripped QQ mail account and authorisation code. */
  datatype Toolkit = Toolkit(user: string, authCode: string) {
    /** `qq_configured = all([qq_user, qq_auth_code])`. */
    predicate Configured() {
      user != "" && authCode != ""
    }
  }

  /** `Toolkit.__init__`: reads the two settings (missing ones as "") and strips them. */
  function NewToolkit(userSetting: Option<string>, authSetting: Option<string>): (t: Toolkit)
    ensures t.Configured() <==> !IsBlank(userSetting.GetOr("")) && !IsBlank(authSetting.GetOr(""))
  {
    BlankIffAllSpace(userSetting.GetOr(""));
    Toolkit(Strip(userSetting.GetOr("")), Strip(authSetting.GetOr("")))
  }

  /** What a Test.py tool call comes to: a string decided before any external
      call, the SMTP session (its success text or `False`), or an exception
      escaping `call_tool`. */
  datatype Outcome =
    | Reply(text: string)
    | SmtpSend(user: string, to: string, subject: string, body: string)
    | Raised(error: string)

  const MissingEmailField := "邮件发送失败：收件人、主题或正文不能为空"
  const NotConfigured := "邮件发送失败：请在.env文件中配置QQ_EMAIL_USER（邮箱地址）和QQ_EMAIL_AUTH_CODE（授权码）"
  const UnknownToolPrefix := "工具调用失败：未知工具"
  const SupportedTools := "（支持的工具：get_weather、calculator、send_qq_email、file_info_query）"

  /** `send_qq_email`: empty fields, then an unconfigured account, are refused
      before the SMTP connection is opened. */
  function SendQqEmail(t: Toolkit, to: string, subject: string, body: string): (o: Outcome)
    ensures (to == "" || subject == "" || body == "") ==> o == Reply(MissingEmailField)
    ensures to != "" && subject != "" && body != "" && !t.Configured() ==> o == Reply(NotConfigured)
    ensures o.SmtpSend? <==> to != "" && subject != "" && body != "" && t.Configured()
    ensures o.SmtpSend? ==> o == SmtpSend(t.user, to, subject, body)
  {
    if to == "" || subject == "" || body == "" then Reply(MissingEmailField)
    else if !t.Configured() then Reply(NotConfigured)
    else SmtpSend(t.user, to, subject, body)
  }

  /** `Toolkit.call_tool`: only "send_qq_email" is known. Its three parameters
      are read (missing as "") and stripped left to right; `.get` on a non-dict
      or `.strip` on a non-string raises `AttributeError`. */
  function CallTool(t: Toolkit, action: Value, parameters: Value, repr: Value -> string): (o: Outcome)
    ensures action != Str("send_qq_email")
            ==> o == Reply(UnknownToolPrefix + "'" + ToStr(action, repr) + "'" + SupportedTools)
    ensures action == Str("send_qq_email") && !parameters.Obj? ==> o == Raised(NoAttribute(parameters, "get"))
    ensures o.SmtpSend? ==> t.Configured() && o.to != "" && o.subject != "" && o.body != ""
    ensures o.SmtpSend? ==> parameters.Obj?
                            && var to := Get(parameters.fields, "to", Str(""));
                               var subject := Get(parameters.fields, "subject", Str(""));
                               var body := Get(parameters.fields, "body", Str(""));
                               to.Str? && subject.Str? && body.Str?
                               && o.to == Strip(to.s) && o.subject == Strip(subject.s) && o.body == Strip(body.s)
    ensures action == Str("send_qq_email") && parameters.Obj? ==>
              var to := Get(parameters.fields, "to", Str(""));
              var subject := Get(parameters.fields, "subject", Str(""));
              var body := Get(parameters.fields, "body", Str(""));
              && (!to.Str? ==> o == Raised(NoAttribute(to, "strip")))
              && (to.Str? && !subject.Str? ==> o == Raised(NoAttribute(subject, "strip")))
              && (to.Str? && subject.Str? && !body.Str? ==> o == Raised(NoAttribute(body, "strip")))
              && (to.Str? && subject.Str? && body.Str? ==>
                    o == SendQqEmail(t, Strip(to.s), Strip(subject.s), Strip(body.s)))
  {
    if action != Str("send_qq_email") then
      Reply(UnknownToolPrefix + "'" + ToStr(action, repr) + "'" + SupportedTools)
    else if !parameters.Obj? then Raised(NoAttribute(parameters, "get"))
    else
      var p := parameters.fields;
      var to := Get(p, "to", Str(""));
      var subject := Get(p, "subject", Str(""));
      var body := Get(p, "body", Str(""));
      if !to.Str? then Raised(NoAttribute(to, "strip"))
      else if !subject.Str? then Raised(NoAttribute(subject, "strip"))
      else if !body.Str? then Raised(NoAttribute(body, "strip"))
      else SendQqEmail(t, Strip(to.s), Strip(subject.s), Strip(body.s))
  }

  /** For "send_qq_email" with dict parameters: the mail goes out exactly when the
      three fields are strings with a non-whitespace character and the account is
      configured, with the fields stripped; a whitespace-only string field is
      refused as empty. */
  lemma QqMailSentIff(t: Toolkit, p: map<string, Value>, repr: Value -> string)
    ensures var o := CallTool(t, Str("send_qq_email"), Obj(p), repr);
            var to := Get(p, "to", Str(""));
            var subject := Get(p, "subject", Str(""));
            var body := Get(p, "body", Str(""));
            && (o.SmtpSend? <==> to.Str? && subject.Str? && body.Str?
                                 && !AllSpace(to.s) && !AllSpace(subject.s) && !AllSpace(body.s)
                                 && t.Configured())
            && (o.SmtpSend? ==> o == SmtpSend(t.user, Strip(to.s), Strip(subject.s), Strip(body.s)))
            && (to.Str? && subject.Str? && body.Str?
                && (AllSpace(to.s) || AllSpace(subject.s) || AllSpace(body.s))
                ==> o == Reply(MissingEmailField))
  {
    var to := Get(p, "to", Str(""));
    var subject := Get(p, "subject", Str(""));
    var body := Get(p, "body", Str(""));
    if to.Str? && subject.Str? && body.Str? {
      BlankIffAllSpace(to.s);
      BlankIffAllSpace(subject.s);
      BlankIffAllSpace(body.s);
    }
  }

  /* ---------------- DeepseekAgent.extract_tool_call ---------------- */

  const Fence := "```"

  /** `part.lower().startswith("json")`. Only 'j'/'J', 's'/'S', 'o'/'O' and
      'n'/'N' lower-case to those letters, so this is exact. */
  predicate IsJsonTag(p: string) {
    |p| >= 4 && p[0] in {'j', 'J'} && p[1] in {'s', 'S'} && p[2] in {'o', 'O'} && p[3] in {'n', 'N'}
  }

  /** ASCII lower-casing of one character. */
  function AsciiLower(c: char): char {
    if 'A' <= c <= 'Z' then (c as int + 32) as char else c
  }

  /** The tag test is "the first four characters, lower-cased, spell json". */
  lemma JsonTagIsLowerPrefix(p: string)
    ensures IsJsonTag(p) <==>
              |p| >= 4 && AsciiLower(p[0]) == 'j' && AsciiLower(p[1]) == 's'
              && AsciiLower(p[2]) == 'o' && AsciiLower(p[3]) == 'n'
  {
  }

  /** `p.startswith("{") and p.endswith("}")`. */
  predicate Braced(p: string) {
    "{" <= p && EndsWith(p, "}")
  }

  predicate Qualifies(p: string) {
    IsJsonTag(p) || Braced(p)
  }

  /** The JSON text a qualifying segment yields: the tag dropped and the rest
      stripped, or the braced segment itself. */
  function Payload(p: string): (r: string)
    requires Qualifies(p)
    ensures |r| <= |p| && Strip(r) == r
    ensures IsJsonTag(p) ==> |r| <= |p| - 4
    ensures Braced(p) ==> r == p
  {
    if IsJsonTag(p) then
      StripIdempotent(p[4..]);
      Strip(p[4..])
    else
      BracedIsStripped(p);
      p
  }

  /** A braced segment is never "json"-tagged, and has no surrounding
      whitespace for `strip` to remove. */
  lemma BracedIsStripped(p: string)
    requires Braced(p)
    ensures !IsJsonTag(p) && Strip(p) == p
  {
    assert p[0] == '{';
    assert p[|p| - 1] == '}';
    StripUnchanged(p);
  }

  /** `[p.strip() for p in parts if p.strip()]`. */
  function NonBlankStripped(parts: seq<string>): (r: seq<string>)
    ensures |r| == NonBlankCount(parts) <= |parts|
    ensures forall i :: 0 <= i < |r| ==> r[i] != []
  {
    if |parts| == 0 then []
    else (if IsBlank(parts[0]) then [] else [Strip(parts[0])]) + NonBlankStripped(parts[1..])
  }

  /** How many parts are not blank. */
  function NonBlankCount(parts: seq<string>): nat {
    if |parts| == 0 then 0 else (if IsBlank(parts[0]) then 0 else 1) + NonBlankCount(parts[1..])
  }

  /** The comprehension keeps the stripped non-blank parts and nothing else, in
      their order: non-blank part `j` lands at the index that counts the
      non-blank parts before it. */
  lemma {:induction false} NonBlankStrippedInOrder(parts: seq<string>)
    ensures |NonBlankStripped(parts)| == NonBlankCount(parts)
    ensures forall j :: 0 <= j < |parts| && !IsBlank(parts[j]) ==> KeptAt(parts, j)
  {
    if |parts| > 0 {
      var rest := parts[1..];
      NonBlankStrippedInOrder(rest);
      forall j | 0 <= j < |parts| && !IsBlank(parts[j]) ensures KeptAt(parts, j) {
        if j == 0 {
          KeptAtHead(parts);
        } else {
          assert rest[j - 1] == parts[j];
          KeptAtAfterHead(parts, j);
        }
      }
    }
  }

  lemma KeptAtHead(parts: seq<string>)
    requires |parts| > 0 && !IsBlank(parts[0])
    ensures KeptAt(parts, 0)
  {
    assert parts[..0] == [];
  }

  /** Non-blank part `j` is kept, stripped, at its rank among the non-blank parts. */
  predicate KeptAt(parts: seq<string>, j: nat)
    requires j < |parts|
  {
    && NonBlankCount(parts[..j]) < |NonBlankStripped(parts)|
    && NonBlankStripped(parts)[NonBlankCount(parts[..j])] == Strip(parts[j])
  }

  lemma KeptAtAfterHead(parts: seq<string>, j: nat)
    requires 0 < j < |parts| && KeptAt(parts[1..], j - 1)
    ensures KeptAt(parts, j)
  {
    var rest := parts[1..];
    var head := if IsBlank(parts[0]) then [] else [Strip(parts[0])];
    var tail := NonBlankStripped(rest);
    var k := NonBlankCount(rest[..j - 1]);
    assert NonBlankStripped(parts) == head + tail;
    assert NonBlankCount(parts[..j]) == |head| + k by { CountAfterHead(parts, j); }
    assert k < |tail| && tail[k] == Strip(parts[j]) by {
      assert rest[j - 1] == parts[j];
    }
    IndexAfterHead(NonBlankStripped(parts), head, tail, NonBlankCount(parts[..j]), k);
  }

  lemma CountAfterHead(parts: seq<string>, j: nat)
    requires 0 < j <= |parts|
    ensures NonBlankCount(parts[..j])
            == (if IsBlank(parts[0]) then 0 else 1) + NonBlankCount(parts[1..][..j - 1])
  {
    assert parts[..j][1..] == parts[1..][..j - 1] && parts[..j][0] == parts[0];
  }

  /** The segments between "```" fences that the loop looks at. */
  function Segments(reply: string): seq<string> {
    NonBlankStripped(Split(reply, Fence))
  }

  /** The loop of `extract_tool_call`: the index of the first qualifying part at
      or after `from`, or `|parts|` when none qualifies. */
  function FirstQualifying(parts: seq<string>, from: nat): (i: nat)
    requires from <= |parts|
    ensures from <= i <= |parts|
    ensures i < |parts| ==> Qualifies(parts[i])
    ensures forall j :: from <= j < i ==> !Qualifies(parts[j])
    decreases |parts| - from
  {
    if from == |parts| then from
    else if Qualifies(parts[from]) then from
    else FirstQualifying(parts, from + 1)
  }

  /** The `tool_json` that `extract_tool_call` settles on before parsing. */
  function Candidate(reply: string): (c: Option<string>)
    ensures !Contains(reply, Fence) ==> (c.Some? <==> Braced(Strip(reply)))
    ensures !Contains(reply, Fence) && c.Some? ==> c.value == Strip(reply)
    ensures Contains(reply, Fence) ==>
              (c.None? <==> forall i :: 0 <= i < |Segments(reply)| ==> !Qualifies(Segments(reply)[i]))
  {
    if Contains(reply, Fence) then
      var parts := Segments(reply);
      var i := FirstQualifying(parts, 0);
      if i < |parts| then Some(Payload(parts[i])) else None
    else
      var c := Strip(reply);
      if Braced(c) then Some(c) else None
  }

  /** With a "```" in the reply, the candidate is the payload of the first
      segment that is tagged "json" or braced. */
  lemma CandidateIsFirstQualifying(reply: string, i: nat)
    requires Contains(reply, Fence)
    requires i < |Segments(reply)| && Qualifies(Segments(reply)[i])
    requires forall j :: 0 <= j < i ==> !Qualifies(Segments(reply)[j])
    ensures Candidate(reply) == Some(Payload(Segments(reply)[i]))
  {
    FirstQualifyingIsUnique(Segments(reply), 0, i);
  }

  /** A qualifying index with none qualifying before it is the one the loop finds. */
  lemma FirstQualifyingIsUnique(parts: seq<string>, from: nat, i: nat)
    requires from <= i < |parts| && Qualifies(parts[i])
    requires forall j :: from <= j < i ==> !Qualifies(parts[j])
    ensures FirstQualifying(parts, from) == i
  {
  }

  /** Why `extract_tool_call` raises `ValueError`. */
  datatype ExtractError =
    | BadJson(candidate: string, reason: string)
    | MissingFields(value: Value)

  /** What `extract_tool_call` does: no call (`None`), a validated dict, or a
      raised `ValueError`. */
  datatype Extraction = NoCall | Call(fields: map<string, Value>) | Invalid(error: ExtractError)

  /** `extract_tool_call`: an empty or absent candidate is no call; one that does
      not parse, or parses to something other than a dict with "action" and
      "parameters", raises. */
  function ExtractToolCall(reply: string, parse: string -> Parse): (e: Extraction)
    ensures e.Call? ==> "action" in e.fields && "parameters" in e.fields
    ensures e.NoCall? <==> Candidate(reply).None? || Candidate(reply).value == ""
    ensures e.Call? ==> parse(Candidate(reply).value) == Parsed(Obj(e.fields))
    ensures e.Invalid? <==> Candidate(reply).Some? && Candidate(reply).value != ""
                            && !(parse(Candidate(reply).value).Parsed? && IsToolCall(parse(Candidate(reply).value).value))
  {
    CallOf(Candidate(reply), parse)
  }

  /** The second half of `extract_tool_call`: no candidate, or an empty one, is
      no call; otherwise `json.loads` it and insist on a tool call. */
  function CallOf(c: Option<string>, parse: string -> Parse): (e: Extraction)
    ensures e.NoCall? <==> c.None? || c.value == ""
    ensures e.Call? <==> c.Some? && c.value != "" && parse(c.value).Parsed? && IsToolCall(parse(c.value).value)
    ensures e.Call? ==> parse(c.value) == Parsed(Obj(e.fields))
  {
    match c
    case None => NoCall
    case Some(c) =>
      if c == "" then NoCall
      else match parse(c)
        case Malformed(reason) => Invalid(BadJson(c, reason))
        case Parsed(v) => if IsToolCall(v) then Call(v.fields) else Invalid(MissingFields(v))
  }

  const BadJsonText := "JSON格式错误："
  const MissingFieldsText := "JSON缺少必要字段，必须包含'action'和'parameters'："

  /** The `ValueError` message: the two kinds of error are told apart by their
      opening words, and an unparsable candidate is quoted right after them. */
  function ErrorText(e: ExtractError, repr: Value -> string): (r: string)
    ensures e.BadJson? <==> BadJsonText <= r
    ensures e.MissingFields? <==> MissingFieldsText <= r
    ensures e.BadJson? ==> |BadJsonText| + |e.candidate| <= |r|
                           && r[|BadJsonText|..|BadJsonText| + |e.candidate|] == e.candidate
  {
    match e
    case BadJson(c, reason) =>
      var r := BadJsonText + c + "，错误原因：" + reason;
      assert r[..|BadJsonText|] == BadJsonText;
      assert r[|BadJsonText|..|BadJsonText| + |c|] == c;
      assert !(MissingFieldsText <= r) by { assert r[4] != MissingFieldsText[4]; }
      r
    case MissingFields(v) =>
      var r := MissingFieldsText + ToStr(v, repr);
      assert r[..|MissingFieldsText|] == MissingFieldsText;
      assert !(BadJsonText <= r) by { assert r[4] != BadJsonText[4]; }
      r
  }

  /* ---------------- facts about extraction ---------------- */

  /** A segment that starts with "json" qualifies by its tag, and yields the
      trimmed rest. */
  lemma JsonTaggedPayload(body: string)
    ensures !IsBlank("json" + body)
    ensures IsJsonTag(Strip("json" + body)) && Payload(Strip("json" + body)) == Strip(body)
  {
    assert NoSpace("json");
    StripAfterWord("json", body);
    var p := "json" + TrimEnd(body);
    TaggedWithJson(TrimEnd(body));
    assert p[4..] == TrimEnd(body);
    StripOfTrimEnd(body);
  }

  lemma TaggedWithJson(rest: string)
    ensures IsJsonTag("json" + rest)
  {
    var p := "json" + rest;
    assert p[..4] == "json";
  }

  lemma TaggedNoBacktick(body: string)
    requires NoChar(body, '`')
    ensures NoChar("json" + body, '`')
  {
    var tagged := "json" + body;
    forall i | 0 <= i < |tagged| ensures tagged[i] != '`' {
      if i >= 4 { assert tagged[i] == body[i - 4]; }
    }
  }

  /** The parts of a reply with one fenced "json" block and no other backtick. */
  lemma SplitOfFencedBlock(pre: string, body: string, post: string)
    requires NoChar(pre, '`') && NoChar(body, '`') && NoChar(post, '`')
    ensures Split(pre + Fence + "json" + body + Fence + post, Fence) == [pre, "json" + body, post]
  {
    var tagged := "json" + body;
    TaggedNoBacktick(body);
    Regroup(pre, Fence, "json", body, post);
    SplitTwice(pre, tagged, post);
  }

  lemma Regroup<T>(a: seq<T>, f: seq<T>, t: seq<T>, b: seq<T>, c: seq<T>)
    ensures a + f + t + b + f + c == a + f + (t + b + f + c)
  {
  }

  lemma SplitTwice(a: string, b: string, c: string)
    requires NoChar(a, '`') && NoChar(b, '`') && NoChar(c, '`')
    ensures Split(a + Fence + (b + Fence + c), Fence) == [a, b, c]
  {
    var tail := Split(b + Fence + c, Fence);
    SplitAt(a, Fence, b + Fence + c);
    SplitAt(b, Fence, c);
    SplitWhole(c, Fence);
    assert tail == [b, c];
  }

  /** A reply with one fenced "json" block yields the block's trimmed body,
      provided the text before the fence does not qualify itself. */
  lemma CandidateOfFencedBlock(pre: string, body: string, post: string)
    requires NoChar(pre, '`') && NoChar(body, '`') && NoChar(post, '`')
    requires IsBlank(pre) || !Qualifies(Strip(pre))
    ensures Candidate(pre + Fence + "json" + body + Fence + post) == Some(Strip(body))
  {
    var s := pre + Fence + "json" + body + Fence + post;
    assert OccursAt(s, Fence, |pre|) by { assert s[|pre|..|pre| + 3] == Fence; }
    SplitOfFencedBlock(pre, body, post);
    assert [pre, "json" + body, post] == [pre, "json" + body] + [post];
    TaggedPartFirst(pre, body, [post]);
  }

  /** A reply with an unclosed fenced "json" block still yields the whole
      trimmed body. */
  lemma CandidateOfUnclosedFence(pre: string, body: string)
    requires NoChar(pre, '`') && NoChar(body, '`')
    requires IsBlank(pre) || !Qualifies(Strip(pre))
    ensures Candidate(pre + Fence + "json" + body) == Some(Strip(body))
  {
    var s := pre + Fence + "json" + body;
    var tagged := "json" + body;
    assert OccursAt(s, Fence, |pre|) by { assert s[|pre|..|pre| + 3] == Fence; }
    TaggedNoBacktick(body);
    assert s == pre + Fence + tagged;
    SplitAt(pre, Fence, tagged);
    SplitWhole(tagged, Fence);
    assert [pre] + [tagged] == [pre, tagged] + [];
    TaggedPartFirst(pre, body, []);
  }

  /** The loop settles on the "json"-tagged part when the part before it does
      not qualify. */
  lemma TaggedPartFirst(pre: string, body: string, rest: seq<string>)
    requires IsBlank(pre) || !Qualifies(Strip(pre))
    ensures var segs := NonBlankStripped([pre, "json" + body] + rest);
            var i := FirstQualifying(segs, 0);
            i < |segs| && Payload(segs[i]) == Strip(body)
  {
    var t := Strip("json" + body);
    assert IsJsonTag(t) && Payload(t) == Strip(body) by { JsonTaggedPayload(body); }
    var lead := if IsBlank(pre) then [] else [Strip(pre)];
    var segs := NonBlankStripped([pre, "json" + body] + rest);
    assert segs == lead + [t] + NonBlankStripped(rest) by { SegmentsAroundTag(pre, body, rest); }
    assert lead == [] || !Qualifies(lead[0]);
    FirstAfterLead(lead, t, NonBlankStripped(rest));
  }

  /** The loop passes over at most one non-qualifying segment. */
  lemma FirstAfterLead(lead: seq<string>, t: string, tail: seq<string>)
    requires |lead| <= 1 && (lead == [] || !Qualifies(lead[0])) && Qualifies(t)
    ensures var segs := lead + [t] + tail;
            FirstQualifying(segs, 0) == |lead| && segs[|lead|] == t
  {
    var segs := lead + [t] + tail;
    if lead == [] {
      assert segs[0] == t;
    } else {
      assert segs[0] == lead[0] && segs[1] == t;
      assert FirstQualifying(segs, 0) == FirstQualifying(segs, 1);
    }
  }

  lemma SegmentsAroundTag(pre: string, body: string, rest: seq<string>)
    ensures NonBlankStripped([pre, "json" + body] + rest)
            == (if IsBlank(pre) then [] else [Strip(pre)]) + [Strip("json" + body)] + NonBlankStripped(rest)
  {
    var tagged := "json" + body;
    assert !IsBlank(tagged) by { JsonTaggedPayload(body); }
    PairThenRest(pre, tagged, rest);
    NonBlankStrippedCons(pre, [tagged] + rest);
    NonBlankStrippedCons(tagged, rest);
  }

  lemma PairThenRest<T>(a: T, b: T, rest: seq<T>)
    ensures [a, b] + rest == [a] + ([b] + rest)
  {
  }

  lemma NonBlankStrippedCons(p: string, ps: seq<string>)
    ensures NonBlankStripped([p] + ps)
            == (if IsBlank(p) then [] else [Strip(p)]) + NonBlankStripped(ps)
  {
    assert ([p] + ps)[1..] == ps;
  }

  /** A reply with no backtick is a call candidate exactly when its trimmed
      text is braced. */
  lemma CandidateOfBareReply(reply: string)
    requires NoChar(reply, '`')
    ensures Candidate(reply) == (if Braced(Strip(reply)) then Some(Strip(reply)) else None)
  {
    FindAbsent(reply, Fence, 0);
  }

  /* ---------------- DeepseekAgent.process_input ---------------- */

  /** One turn: the memory afterwards and the tool outcome, if a tool ran
      (its result is only printed). */
  datatype Turn = Turn(memory: Memory, tool: Option<Outcome>)

  const Failed := "处理失败："

  /** The "system" message `process_input` records for an exception. */
  function FailureNote(error: string): (msg: Message)
    ensures msg.role == "system" && Failed <= msg.content
  {
    assert Failed <= Failed + error + "\n" by {
      assert (Failed + error + "\n")[..|Failed|] == Failed;
    }
    Message("system", Failed + error + "\n")
  }

  /** The error text can be read back from the note, after the lead. */
  lemma FailureNoteQuotesError(error: string)
    ensures FailureNote(error).content[|Failed|..] == error + "\n"
  {
    assert (Failed + error + "\n")[|Failed|..] == error + "\n";
  }


  /** `process_input`: record the user message, ask the LLM with the full
      message list, record its stripped reply, and run the extracted tool.
      An API error is recorded as a "system" failure note. */
  function ProcessInput(m: Memory, t: Toolkit, input: string,
                        llm: seq<Message> -> AgentTools.LlmReply,
                        parse: string -> Parse, repr: Value -> string): (turn: Turn)
    ensures turn.memory.systemPrompt == m.systemPrompt && turn.memory.maxHistory == m.maxHistory
    ensures turn.tool.Some? ==> !turn.tool.value.Raised?
    ensures var asked := AddAll(m, [Message("user", input)]);
            var answer := llm(GetMessages(asked));
            && (answer.ApiError? ==> turn == Turn(AddAll(m, [Message("user", input), FailureNote(answer.error)]), None))
            && (answer.Content? ==> turn == HandleReply(asked, t, Strip(answer.text), parse, repr))
  {
    var user := Message("user", input);
    AddAllOne(m, user);
    var m1 := AddMessage(m, "user", input);
    match llm(GetMessages(m1))
    case ApiError(e) =>
      AddAllTwo(m, user, FailureNote(e));
      Turn(AddMessage(m1, "system", Failed + e + "\n"), None)
    case Content(text) => HandleReply(m1, t, Strip(text), parse, repr)
  }

  /** The part of `process_input` after the LLM answered: record the stripped
      reply, then extract and run the tool call; a `ValueError` from the
      extraction or an exception from the tool adds a failure note after it. */
  function HandleReply(m1: Memory, t: Toolkit, raw: string,
                       parse: string -> Parse, repr: Value -> string): (turn: Turn)
    ensures turn.memory.systemPrompt == m1.systemPrompt && turn.memory.maxHistory == m1.maxHistory
    ensures turn.tool.Some? ==> !turn.tool.value.Raised?
    ensures var x := ExtractToolCall(raw, parse);
            var reply := Message("assistant", raw);
            && (x.NoCall? ==> turn == Turn(AddAll(m1, [reply]), None))
            && (x.Invalid? ==> turn == Turn(AddAll(m1, [reply, FailureNote(ErrorText(x.error, repr))]), None))
            && (x.Call? ==>
                  var o := CallTool(t, x.fields["action"], x.fields["parameters"], repr);
                  && (o.Raised? ==> turn == Turn(AddAll(m1, [reply, FailureNote(o.error)]), None))
                  && (!o.Raised? ==> turn == Turn(AddAll(m1, [reply]), Some(o))))
  {
    RecordTurn(m1, t, raw, ExtractToolCall(raw, parse), repr)
  }

  /** What a turn records once the extraction `x` of the reply `raw` is known. */
  function RecordTurn(m1: Memory, t: Toolkit, raw: string, x: Extraction, repr: Value -> string): (turn: Turn)
    ensures turn.memory.systemPrompt == m1.systemPrompt && turn.memory.maxHistory == m1.maxHistory
    ensures turn.tool.Some? ==> !turn.tool.value.Raised?
    ensures var reply := Message("assistant", raw);
            && (x.NoCall? ==> turn == Turn(AddAll(m1, [reply]), None))
            && (x.Invalid? ==> turn == Turn(AddAll(m1, [reply, FailureNote(ErrorText(x.error, repr))]), None))
            && (x.Call? && "action" in x.fields && "parameters" in x.fields ==>
                  var o := CallTool(t, x.fields["action"], x.fields["parameters"], repr);
                  && (o.Raised? ==> turn == Turn(AddAll(m1, [reply, FailureNote(o.error)]), None))
                  && (!o.Raised? ==> turn == Turn(AddAll(m1, [reply]), Some(o))))
  {
    var reply := Message("assistant", raw);
    AddAllOne(m1, reply);
    var m2 := AddMessage(m1, "assistant", raw);
    match x
    case NoCall => Turn(m2, None)
    case Invalid(err) =>
      AddAllTwo(m1, reply, FailureNote(ErrorText(err, repr)));
      Turn(AddMessage(m2, "system", Failed + ErrorText(err, repr) + "\n"), None)
    case Call(d) =>
      var o := CallTool(t, Get(d, "action", Str("")), Get(d, "parameters", Str("")), repr);
      if o.Raised? then
        AddAllTwo(m1, reply, FailureNote(o.error));
        Turn(AddMessage(m2, "system", Failed + o.error + "\n"), None)
      else Turn(m2, Some(o))
  }

  lemma AddAllOne(m: Memory, a: Message)
    ensures AddAll(m, [a]) == AddMessage(m, a.role, a.content)
  {
    assert [a][1..] == [];
  }

  lemma AddAllTwo(m: Memory, a: Message, b: Message)
    ensures AddAll(m, [a, b]) == AddMessage(AddMessage(m, a.role, a.content), b.role, b.content)
  {
    assert [a, b][1..] == [b];
    AddAllOne(AddMessage(m, a.role, a.content), b);
  }

  predicate IsFailureNote(msg: Message) {
    msg.role == "system" && Failed <= msg.content
  }

  /** After a turn (with a non-negative bound) the last history entry is the
      LLM's stripped reply or a "system" failure note; after an API error it is
      the note for that error. */
  lemma TurnEndsWithReplyOrFailure(m: Memory, t: Toolkit, input: string,
                                   llm: seq<Message> -> AgentTools.LlmReply,
                                   parse: string -> Parse, repr: Value -> string)
    requires m.maxHistory >= 0
    ensures var h := ProcessInput(m, t, input, llm, parse, repr).memory.history;
            var answer := llm(GetMessages(AddMessage(m, "user", input)));
            && |h| > 0
            && (answer.ApiError? ==> h[|h| - 1] == FailureNote(answer.error))
            && (answer.Content? ==> h[|h| - 1] == Message("assistant", Strip(answer.text)) || IsFailureNote(h[|h| - 1]))
  {
    var user := Message("user", input);
    AddAllOne(m, user);
    var answer := llm(GetMessages(AddMessage(m, "user", input)));
    if answer.ApiError? {
      TwoAddedLast(m, user, FailureNote(answer.error));
    } else {
      ReplyTurnEndsWithReplyOrFailure(AddAll(m, [user]), t, Strip(answer.text), parse, repr);
    }
  }

  lemma ReplyTurnEndsWithReplyOrFailure(m1: Memory, t: Toolkit, raw: string,
                                        parse: string -> Parse, repr: Value -> string)
    requires m1.maxHistory >= 0
    ensures ReplyOrNoteLast(HandleReply(m1, t, raw, parse, repr), raw)
  {
    RecordedTurnEnds(m1, t, raw, ExtractToolCall(raw, parse), repr);
  }

  /** The history of a turn ends with the reply `raw` or a failure note. */
  predicate ReplyOrNoteLast(turn: Turn, raw: string) {
    var h := turn.memory.history;
    |h| > 0 && (h[|h| - 1] == Message("assistant", raw) || IsFailureNote(h[|h| - 1]))
  }

  lemma RecordedTurnEnds(m1: Memory, t: Toolkit, raw: string, x: Extraction, repr: Value -> string)
    requires m1.maxHistory >= 0
    ensures ReplyOrNoteLast(RecordTurn(m1, t, raw, x, repr), raw)
  {
    match x
    case NoCall =>
    case Invalid(err) =>
      InvalidTurnEnds(m1, t, raw, err, repr);
    case Call(d) =>
      CalledTurnEnds(m1, t, raw, d, repr);
  }

  lemma InvalidTurnEnds(m1: Memory, t: Toolkit, raw: string, err: ExtractError, repr: Value -> string)
    requires m1.maxHistory >= 0
    ensures ReplyOrNoteLast(RecordTurn(m1, t, raw, Invalid(err), repr), raw)
  {
    var m2 := AddMessage(m1, "assistant", raw);
    var e := ErrorText(err, repr);
    FailureNoteIsLast(m2, e);
    assert RecordTurn(m1, t, raw, Invalid(err), repr).memory == AddMessage(m2, "system", Failed + e + "\n");
  }

  lemma CalledTurnEnds(m1: Memory, t: Toolkit, raw: string, d: map<string, Value>, repr: Value -> string)
    requires m1.maxHistory >= 0
    ensures ReplyOrNoteLast(RecordTurn(m1, t, raw, Call(d), repr), raw)
  {
    var m2 := AddMessage(m1, "assistant", raw);
    var o := CallTool(t, Get(d, "action", Str("")), Get(d, "parameters", Str("")), repr);
    if o.Raised? {
      FailureNoteIsLast(m2, o.error);
      assert RecordTurn(m1, t, raw, Call(d), repr).memory == AddMessage(m2, "system", Failed + o.error + "\n");
    } else {
      assert RecordTurn(m1, t, raw, Call(d), repr).memory == m2;
    }
  }

  /** With a non-negative bound, the message added last is the last one kept. */
  lemma OneAddedLast(m: Memory, a: Message)
    requires m.maxHistory >= 0
    ensures var h := AddAll(m, [a]).history; |h| > 0 && h[|h| - 1] == a
  {
    AddAllOne(m, a);
  }

  lemma TwoAddedLast(m: Memory, a: Message, b: Message)
    requires m.maxHistory >= 0
    ensures var h := AddAll(m, [a, b]).history; |h| > 0 && h[|h| - 1] == b
  {
    AddAllTwo(m, a, b);
  }

  /** Recording a failure note leaves it last. */
  lemma FailureNoteIsLast(m: Memory, error: string)
    requires m.maxHistory >= 0
    ensures var h := AddMessage(m, "system", Failed + error + "\n").history;
            |h| > 0 && h[|h| - 1] == FailureNote(error) && IsFailureNote(h[|h| - 1])
  {
  }

  /** The LLM is asked with the system prompt first and the new user message
      last (for a non-negative bound). */
  lemma LlmSeesPromptAndInput(m: Memory, input: string)
    requires m.maxHistory >= 0
    ensures var msgs := GetMessages(AddMessage(m, "user", input));
            msgs[0] == Message("system", m.systemPrompt) && msgs[|msgs| - 1] == Message("user", input)
  {
    var m1 := AddMessage(m, "user", input);
    assert GetMessages(m1)[|GetMessages(m1)| - 1] == m1.history[|m1.history| - 1];
  }
}

=== FILE: variants.dfy ===
/**
 How the two extractors compare: `extract_tool_call` in agent_tools.py (first
 "```json" up to the next "```") and in Test.py (split on "```", first part
 tagged "json" or braced, or a bare braced reply).
 */
module ExtractorVariants {
  import opened Wrappers
  import opened PyStr
  import opened Json
  import AgentTools
  import TestAgent

  /** A reply holding one closed "```json" block (and no other backtick), whose
      leading text does not qualify on its own. */
  predicate SingleFencedBlock(pre: string, body: string, post: string) {
    && NoChar(pre, '`') && NoChar(body, '`') && NoChar(post, '`')
    && (IsBlank(pre) || !TestAgent.Qualifies(Strip(pre)))
  }

  /** "```json" is the fence followed by the tag Test.py looks for. */
  lemma SameFencedReply(pre: string, body: string, post: string)
    ensures pre + AgentTools.JsonFence + body + AgentTools.Fence + post
            == pre + TestAgent.Fence + "json" + body + TestAgent.Fence + post
    ensures pre + AgentTools.JsonFence + body == pre + TestAgent.Fence + "json" + body
  {
    assert AgentTools.JsonFence == TestAgent.Fence + "json";
  }

  /** On such a reply both extractors settle on the block's trimmed body. */
  lemma VariantsAgreeOnFencedBlock(pre: string, body: string, post: string)
    requires SingleFencedBlock(pre, body, post)
    ensures var reply := pre + AgentTools.JsonFence + body + AgentTools.Fence + post;
            AgentTools.Candidate(reply) == TestAgent.Candidate(reply) == Some(Strip(body))
  {
    SameFencedReply(pre, body, post);
    AgentTools.NoBacktickNoFence(pre, body);
    AgentTools.CandidateOfFencedBlock(pre, body, post);
    TestAgent.CandidateOfFencedBlock(pre, body, post);
  }

  /** ... so they accept the same tool calls; where agent_tools.py gives up
      quietly, Test.py either finds no call (an empty body) or raises. */
  lemma VariantsAcceptSameCalls(pre: string, body: string, post: string, parse: string -> Parse)
    requires SingleFencedBlock(pre, body, post)
    requires parse("").Malformed?
    ensures var reply := pre + AgentTools.JsonFence + body + AgentTools.Fence + post;
            var a := AgentTools.ExtractToolCall(reply, parse);
            var t := TestAgent.ExtractToolCall(reply, parse);
            (a.Some? <==> t.Call?)
            && (a.Some? ==> t.fields == a.value)
            && (a.None? ==> (t.NoCall? <==> Strip(body) == ""))
  {
    VariantsAgreeOnFencedBlock(pre, body, post);
    SameCandidateSameCalls(Strip(body), parse);
  }

  /** Extractors that settle on the same candidate accept the same calls
      (`json.loads("")` raises, so the empty candidate is no call for either). */
  lemma SameCandidateSameCalls(c: string, parse: string -> Parse)
    requires parse("").Malformed?
    ensures var a := AgentTools.CallOf(Some(c), parse);
            var t := TestAgent.CallOf(Some(c), parse);
            (a.Some? <==> t.Call?)
            && (a.Some? ==> t.fields == a.value)
            && (a.None? ==> (t.NoCall? <==> c == ""))
  {
  }

  /** A bare JSON object with no fence: agent_tools.py finds no call, Test.py
      takes the whole trimmed reply. */
  lemma VariantsDivergeOnBareObject(reply: string)
    requires NoChar(reply, '`') && TestAgent.Braced(Strip(reply))
    ensures AgentTools.Candidate(reply).None?
    ensures TestAgent.Candidate(reply) == Some(Strip(reply))
  {
    FindAbsent(reply, AgentTools.JsonFence, 0);
    TestAgent.CandidateOfBareReply(reply);
  }

  /** A "```json" block that is never closed: agent_tools.py's slice ends one
      character short of the reply, Test.py keeps the whole body. */
  lemma VariantsDivergeOnUnclosedFence(pre: string, body: string)
    requires NoChar(pre, '`') && NoChar(body, '`')
    requires IsBlank(pre) || !TestAgent.Qualifies(Strip(pre))
    ensures var reply := pre + AgentTools.JsonFence + body;
            AgentTools.Candidate(reply) == Some(Strip(Slice(body, 0, -1)))
            && TestAgent.Candidate(reply) == Some(Strip(body))
  {
    SameFencedReply(pre, body, "");
    AgentTools.NoBacktickNoFence(pre, body);
    AgentTools.CandidateOfUnclosedFence(pre, body);
    TestAgent.CandidateOfUnclosedFence(pre, body);
  }

  /** For instance "```json{}" gives agent_tools.py the candidate "{" (which no
      JSON parser accepts) and Test.py the object "{}". */
  lemma UnclosedEmptyObject()
    ensures AgentTools.Candidate(AgentTools.JsonFence + "{}") == Some("{")
    ensures TestAgent.Candidate(AgentTools.JsonFence + "{}") == Some("{}")
  {
    assert "" + AgentTools.JsonFence + "{}" == AgentTools.JsonFence + "{}";
    BlankIffAllSpace("");
    VariantsDivergeOnUnclosedFence("", "{}");
    EmptyObjectStrips();
  }

  lemma EmptyObjectStrips()
    ensures Strip(Slice("{}", 0, -1)) == "{" && Strip("{}") == "{}"
  {
    assert Slice("{}", 0, -1) == "{";
    BracesAreNotSpace();
    StripNoSpace("{");
    StripNoSpace("{}");
  }

  lemma BracesAreNotSpace()
    ensures NoSpace("{") && NoSpace("{}")
  {
    assert !IsSpace('{') && !IsSpace('}');
    var b := "{}";
    assert b[0] == '{' && b[1] == '}';
  }
}

=== FILE: wrappers.dfy ===
/** Python's `None`-or-value, used wherever the bot returns `None` or reads an optional setting. */
module Wrappers {

  datatype Option<+T> = None | Some(value: T) {

    /** The value, or `default` when there is none (Python's `d.get(k, default)` shape). */
    function GetOr(default: T): T {
      match this
      case Some(v) => v
      case None => default
    }
  }
}
